=== FILE: README.md ===
# Asset catalog: a verified model of its record logic

The catalog is a small Flask application over one SQLite table. Staff use it to register reusable internal
assets: datasets, models, pipelines and the like. Each asset carries a business unit, an asset type, a
licence flag and three 0–5 scores (readiness, engineering, maintenance). This project models the parts of
the application that hold logic, and proves what they promise:

- **`Text`** (text.dfy). The Python string operations the code relies on:
  - `str.isspace`, `strip`, ASCII `lower`;
  - the `in` substring test;
  - `join` and `split` on one delimiter.
- **`Db`** (db.dfy). The store of db.py:
  - the `|`-delimited encoding of the two list columns (`serialize_list` / `deserialize_list`);
  - the `assets` table as a map from id to row, plus the AUTOINCREMENT sequence;
  - the CRUD functions, as pure functions on the table and as the methods of the `AssetStore` class, which
    updates the table in place.
- **`Validate`** (validate.dfy). From app.py:
  - the option lists;
  - the case-insensitive `contains`;
  - `validate_payload` with its fixed order of checks and its messages;
  - `normalize_date_str`, over a date parser given as a parameter.
- **`Browse`** (browse.dfy). The body of the `index` handler:
  - the five text filters plus the readiness threshold, applied stage by stage;
  - the stable sort by (readiness, engineering, maintenance), highest first.
- **`Seed`** (seed.dfy). `seed_if_empty`: the seed items and today's date are parameters, and the items get
  their defaults with `setdefault`.
- **`Schema`** (schema.py's model, in schema.dfy). The three closed vocabularies and the `Asset` record with
  its constraints and defaults, related to `validate_payload`.

Points of the code that the model follows closely:

- `validate_payload` has two score messages:
  - "`<key>` must be a number between 0 and 5." when `int(...)` raises;
  - "`<key>` must be between 0 and 5." when the value is out of range.
- `validate_payload` does not strip anything. The `add` and `edit` handlers strip the form fields before
  calling it (app.py:176-191, 223-238).
- The sort is one stable sort on the key (readiness, engineering, maintenance), descending. For scores
  (5,1,1), (5,1,1), (5,2,0), (3,5,5) it puts (5,2,0) first, then the two (5,1,1) records in input order,
  then (3,5,5); `Browse.SortExample` proves this order.

## Model

| member | source | states |
|---|---|---|
| Text.Strip | app.py:98-102 | `strip()`: the result is empty exactly when the input is all whitespace, and otherwise neither starts nor ends with whitespace |
| Text.StripSlice | app.py:98-102 | `strip()` removes only surrounding whitespace: the result is a contiguous slice of the input with nothing but whitespace before and after it |
| Text.StripUnchanged | db.py:46 | a string with no whitespace at either end is its own `strip()` |
| Text.StripTwice | app.py:98-102 | `strip()` is idempotent |
| Text.StripKeepsOut | db.py:46 | stripping never introduces a character that was not in the input |
| Text.Occurs | app.py:60 | the `in` test on strings: true exactly when the needle occurs at some position of the haystack |
| Text.Lower | app.py:60 | `lower()` on ASCII letters: same length, no capital left, each capital replaced by its small letter, every other character kept |
| Text.LowerKeepsSubstring | app.py:60 | lower-casing both strings keeps a substring a substring |
| Text.Join | db.py:46 | `str.join`: the pieces with the separator between each two; its properties are stated by `Text.JoinHas`, `Text.JoinCons` and `Text.SplitJoin` |
| Text.JoinHas | app.py:109-120 | every piece of a `join` occurs in the joined string |
| Text.Split | db.py:52 | `split('|')`: at least one piece, no piece contains the delimiter, and joining the pieces with it gives back the input |
| Text.SplitJoin | db.py:45-52 | splitting a join on a delimiter no piece contains gives back the pieces |
| Db.Normalized | db.py:46 | `serialize_list` keeps no more entries than it is given |
| Db.NormalizedAppend | db.py:46 | the comprehension treats each entry alone: the kept entries of a concatenation are the concatenation of the kept entries, and one entry is dropped when blank and otherwise kept stripped |
| Db.NormalizedOfClean | db.py:46 | a list whose entries are non-empty with no whitespace at either end passes through unchanged |
| Db.NormalizedClean | db.py:46 | every entry `serialize_list` keeps is non-empty and has no whitespace at either end |
| Db.NormalizedEmpty | db.py:46 | nothing is kept exactly when every entry is blank |
| Db.Serialize | db.py:45-46 | the encoding is the empty string exactly when every entry is blank (an empty list included) |
| Db.KeepNonBlank | db.py:52 | the decoding filter keeps only non-blank entries, all taken from the input |
| Db.KeepNonBlankCount | db.py:52 | the decoding filter keeps each non-blank entry exactly as often as it occurs, and no blank entry |
| Db.KeepNonBlankWhole | db.py:52 | the decoding filter keeps a list with no blank entry whole |
| Db.Deserialize | db.py:49-52 | "" decodes to []; no decoded entry is empty, blank or contains `|` |
| Db.ListRoundTrip | db.py:45-52 | when no entry contains `|`, decoding the encoding gives the non-blank entries, stripped, in order |
| Db.CleanRoundTrip | db.py:45-52 | a list of such clean entries, none containing `|`, decodes back to itself |
| Db.ListRoundTripBrokenByBar | db.py:45-52 | the exception: `["a|b"]` comes back as `["a", "b"]` |
| Db.ToRow | db.py:69-85 | the INSERT / UPDATE parameter tuple is built exactly when all three scores convert with `int(...)` |
| Db.RecordOf | db.py:211-213 | a row read back carries its id, and its two list columns decode to non-blank entries |
| Db.InsertInto | db.py:55-90 | `insert_asset` on the table: the new table and the id issued, or no id when `int(...)` raises; its properties are stated by `Db.InsertIssuesFreshId` and `Db.InsertThenGet` |
| Db.InsertIssuesFreshId | db.py:55-90 | `insert_asset` on the table issues the next id, one above the highest issued so far, adds exactly that row, keeps all others and grows the count by one; when `int(...)` raises nothing changes |
| Db.UpdateTouchesOnlyItsRow | db.py:93-136 | an update replaces at most the row with that id; an absent id or a raising `int(...)` changes nothing |
| Db.DeleteRemovesOnlyItsRow | db.py:139-144 | a delete removes exactly the row with that id; an absent id changes nothing |
| Db.UpdateIn | db.py:93-136 | `update_asset` on the table runs exactly when all three scores convert, and never changes the set of ids or the AUTOINCREMENT sequence |
| Db.DeleteFrom | db.py:139-144 | `delete_asset` on the table removes that id, and only that id, from the live ids; the sequence is unchanged |
| Db.GetFrom | db.py:182-214 | `get_asset` on the table gives a record exactly when the id is stored, and the record carries that id |
| Db.InsertThenGet | db.py:55-90 | reading back an inserted row gives every submitted field for any payload whose scores convert: lists as `deserialize_list(serialize_list(...))` gives them, scores as converted |
| Db.InsertThenGetLists | db.py:45-90 | when no list entry contains `|`, the lists read back are the submitted ones with blank entries dropped and the rest stripped, in order |
| Db.ExcelraLeverageNotStored | db.py:60-66 | inserts and updates that differ only in `excelra_leverage` leave the same table |
| Db.AssetStore.constructor | db.py:11-42 | a new store is empty and has issued no id |
| Db.AssetStore.Insert | db.py:55-90 | performs the insert on the table; the returned id was never issued before |
| Db.AssetStore.Update | db.py:93-136 | performs the update on the table; the set of issued ids is unchanged |
| Db.AssetStore.Delete | db.py:139-144 | performs the delete on the table |
| Db.AssetStore.Get | db.py:182-214 | `get_asset`: nothing exactly when the id is absent, otherwise the decoded row carrying that id |
| Db.AssetStore.Count | db.py:217-223 | `count_assets` is the number of stored rows |
| Db.AssetStore.List | db.py:147-179 | `list_assets` returns every stored row exactly once, decoded, in strictly descending id order |
| Validate.Contains | app.py:59-60 | `contains(h, n)` holds exactly when lower(n) is a substring of lower(h), a missing haystack read as "" |
| Validate.ContainsEmptyNeedle | app.py:59-60 | the empty needle is found in every haystack |
| Validate.ContainsMissingHaystack | app.py:60 | a missing haystack behaves as "" and contains only the empty needle |
| Validate.ContainsIgnoresCase | app.py:60 | lower-casing either side does not change the answer |
| Validate.CheckScores | app.py:83-89 | the score loop reports nothing exactly when every score converts and lies in [0, 5] |
| Validate.ValidatePayload | app.py:74-90 | no message exactly when the required fields are non-empty, the three option fields are in their lists and every score is in [0, 5] |
| Validate.FirstFailure | app.py:74-90 | nothing exactly when no check fails; otherwise the message of the first failing check |
| Validate.ValidateReportsFirstFailure | app.py:75-89 | `validate_payload` reports the first failing check in the order required fields, BU, asset type, licence, readiness, engineering, maintenance |
| Validate.CheckScoresIsFirstFailure | app.py:83-89 | the score loop reports the first failing score check |
| Validate.ScoreBounds | app.py:84-89 | with everything else acceptable, a whole number is accepted iff it is in [0, 5], otherwise the range message; an unconvertible value gets the number message |
| Validate.OnlyScoreFails | app.py:83-89 | with everything else acceptable, the check of the changed score alone decides the outcome |
| Validate.ScoreBoundaryExamples | app.py:88-89 | -1 and 6 are rejected with "must be between 0 and 5"; 0 and 5 are accepted |
| Validate.NormalizeDate | app.py:63-71 | blank input gives ""; if the parser fails, the stripped input; otherwise the parser's ISO date |
| Browse.Trimmed | app.py:98-102 | the five text parameters come out with no whitespace at either end, each is empty exactly when it was blank, and the threshold is unchanged |
| Browse.TrimmedIdempotent | app.py:98-102 | stripping the parameters a second time changes nothing |
| Browse.Blob | app.py:108-120 | the search text contains the name, summary, URL, primary BU, notes and every secondary BU and use case |
| Browse.BlobSpelled | app.py:108-120 | the search text is exactly the eight slots joined by single spaces, the lists joined by single spaces inside their slots, the `excelra_leverage` slot empty (records never carry it) |
| Browse.FieldMatchKeeps | app.py:107-122 | a query found, ignoring case, in any one searched field is found in the search text, so the record survives the text stage |
| Browse.AnyUseCaseContains | app.py:136-140 | `has_uc` holds exactly when some use case contains the query |
| Browse.AllStagesSelect | app.py:107-141 | passing all six stages is the same as satisfying every active filter |
| Browse.SurvivorsOfNoStage | app.py:105 | before any stage, the list is the input copy |
| Browse.Survivors | app.py:122-141 | the stage-by-stage filter keeps no more records than it is given, each an input record that passes every applied stage |
| Browse.Filtered | app.py:105-141 | every record `index` keeps before sorting is an input record passing all six stages |
| Browse.SurvivorsCompose | app.py:107-141 | applying one more stage to the survivors of earlier stages gives the survivors of all of them |
| Browse.SurvivorsAppend | app.py:122-141 | filtering distributes over concatenation |
| Browse.SurvivorsSkip | app.py:107-135 | a stage whose parameter is empty removes nothing |
| Browse.SurvivorsSubsequence | app.py:122-141 | the kept records are a subsequence of the input |
| Browse.SurvivorsCount | app.py:122-141 | a passing record is kept as often as it occurs; a failing one is dropped |
| Browse.FilteredExactly | app.py:105-141 | before sorting, the list is a subsequence of the input, and a record is kept iff it is an input record satisfying every active filter |
| Browse.DefaultThresholdKeepsAll | app.py:103-133 | the readiness stage is always active; with no parameters, no record with non-negative readiness is removed |
| Browse.InsertByScores | app.py:143-150 | inserting into a sorted list keeps it sorted; the result holds the inserted record and the list's records and nothing else |
| Browse.InsertPermutes | app.py:143-150 | insertion adds exactly one copy of the record: the result is a permutation of the list plus that record |
| Browse.SortByScores | app.py:143-150 | the sorted list is a permutation of its input, non-increasing in the lexicographic (readiness, engineering, maintenance) key |
| Browse.InsertKeepsTies | app.py:143-150 | inserting into a sorted list keeps the records of each key in the order they have in the record followed by the list |
| Browse.SortKeepsTies | app.py:143-150 | stability: records with equal keys keep their input order |
| Browse.SortExample | app.py:143-150 | (5,1,1), (5,1,1), (5,2,0), (3,5,5) sort to (5,2,0), the two (5,1,1) in input order, then (3,5,5) |
| Browse.Narrow | app.py:105-141 | the six filter stages, each applied only when active, keep exactly the filtered list |
| Browse.Index | app.py:98-150 | the page list is sorted, a permutation of the filtered list, and holds exactly the input records that satisfy every active filter on the stripped parameters |
| Browse.ShownExactly | app.py:105-150 | the sorted filtered list is sorted, a permutation of the filtered list, and its members are the selected input records |
| Seed.Defaulted | app.py:46-55 | the ten `setdefault` calls keep every key the item gives and fill the missing ones: empty lists, empty strings (`excelra_leverage` included), scores of 3 and today's date |
| Seed.SeedInto | app.py:45-56 | the seed loop on the table: each defaulted item inserted in turn, stopping at the first insert that raises; its properties are stated by `Seed.SeedIntoCounts`, `Seed.SeedIntoKeeps` and `Seed.SeedIntoStores` |
| Seed.StorableInserts | app.py:45-56 | a seed item inserts without `int(...)` raising exactly when each score it gives converts |
| Seed.Insertable | app.py:45-56 | counts the leading items that insert; all of them insert, the next one does not |
| Seed.SeedIntoCounts | app.py:45-56 | the loop inserts exactly the insertable prefix, issuing one id per item, and completes iff that prefix is all the items; when nothing inserts, the table is unchanged |
| Seed.SeedIntoKeeps | app.py:45-56 | the loop keeps every existing row and adds rows only under the ids it issues |
| Seed.SeedIntoStores | app.py:45-56 | the i-th inserted item is stored, with its defaults, under the i-th id issued |
| Seed.SeedIfEmptySpec | app.py:39-56 | `seed_if_empty` on the table: nothing happens unless the table is empty, then the seed loop; its properties are stated by `Seed.SeedSkipsNonEmpty`, `Seed.SeedIdempotent` and `Seed.SeededDefaults` |
| Seed.SeedSkipsNonEmpty | app.py:41-42 | a store with rows is left unchanged |
| Seed.SeedIdempotent | app.py:39-56 | seeding twice leaves the same table as seeding once |
| Seed.SeededDefaults | app.py:46-55 | an item lacking the optional keys reads back with empty lists and strings, scores of 3 and today's date |
| Seed.PrefixInsertable | app.py:45-56 | an item preceded only by insertable items lies within the inserted prefix |
| Seed.SeedIfEmpty | app.py:39-56 | the store's new state and result are those of `seed_if_empty` on the old table |
| Schema.ParsePrimaryBU | schema.py:5-11 | a string is a `PrimaryBU` exactly when it is one of app.py's business units, and it reads as its own label |
| Schema.ParseAssetType | schema.py:13-22 | a string is an `AssetType` exactly when it is one of app.py's asset types |
| Schema.ParseLicenseFlag | schema.py:24 | a string is a `LicenseFlag` exactly when it is Green, Yellow or Red |
| Schema.LabelsRoundTrip | schema.py:5-24 | every vocabulary value reads back as itself, and its label is in app.py's list |
| Schema.Asset.Valid | schema.py:26-43 | the constraints on an asset: names, summaries and URLs of at least 2, 10 and 5 characters, scores in [0, 5]; a valid asset has a non-empty name, summary and URL |
| Schema.NewAsset | schema.py:26-47 | an asset built with the defaults (Yellow, scores 3, empty lists and strings) is valid exactly when the three length limits hold |
| Schema.ValidAssetPasses | schema.py:26-43 | every valid asset passes `validate_payload`, and its secondary units are all known business units |
| Schema.SchemaStricter | schema.py:28-30 | a payload with a one-character name passes `validate_payload` but comes from no valid asset |

## Left out

- Flask routing, templates, `flash` and `redirect`: the `add`, `edit` and `delete` handlers and the rendering
  in `index` (app.py:93-97, 152-265). The filter values and payloads are plain inputs.
- Building the payload in `add` and `edit` (app.py:175-192, 222-239): the stripping of form fields, the
  `int(...)` of form and query strings, and the `min_ready` parse. These can raise before validation runs.
  `FilterSpec.minReady` is an already parsed integer.
- `DEFAULT_USE_CASES` (app.py:22-36): the templates use it, no logic does.
- Validate.NormalizeDate: dateutil's `parse` is a parameter. Its heuristics and the `None` input are not modelled.
- `date.today()` and reading the seed JSON file are parameters (`today`, the seed item sequence).
- Concurrency. `app.run` (app.py:273) serves requests on several threads, and every handler calls
  `seed_if_empty` (app.py:95, 172, 215, 262), whose count-then-insert is not atomic. On an empty table two
  concurrent requests can both see a count of 0 and both insert the seed items. The model runs each call as
  one atomic step; Seed.SeedIdempotent is about calls made one after the other.
- `init_db` on an existing database and `seed_if_empty`'s call to it: the constructor creates the empty
  table, and re-creating an existing one changes nothing.
- SQLite connections, cursors and commits. The largest-rowid overflow of AUTOINCREMENT is not modelled,
  so ids are unbounded integers.
- Db.ToRow: does not model SQLite's 64-bit INTEGER bound. A score that `int(...)` converts but that lies
  outside [-2^63, 2^63-1] makes the driver raise `OverflowError` when the statement is bound
  (db.py:79-81, 126-128). The model builds the row. Scores that pass `validate_payload` lie in [0, 5].
- Db.UpdateIn: an id outside [-2^63, 2^63-1] makes the driver raise `OverflowError` at db.py:132. The model
  treats it as an id that is not stored, so nothing changes.
- Db.DeleteFrom: an id outside [-2^63, 2^63-1] makes the driver raise `OverflowError` at db.py:142. The model
  treats it as an id that is not stored.
- Db.GetFrom: an id outside [-2^63, 2^63-1] makes the driver raise `OverflowError` at db.py:185. The model
  returns nothing for it.
- A payload or seed item that lacks a required key, which raises `KeyError`. Every modelled payload has
  every key.
- Values of other types than the source expects, such as `None` for a string field. A score is modelled
  only by whether `int(...)` converts it.
- Text.Lower: folds ASCII letters only, not full Unicode case mapping.
- Browse.Index: sorts the filtered list as a value. It does not model `items.sort` reordering that Python
  list in place.
- Pydantic's coercion and error reporting. schema.py is modelled only by its types, defaults and validity
  predicate.
- Server start-up and port binding (app.py:268-275).

=== FILE: browse.dfy ===
/**
 * The browse page of app.py (`index`): the records read from the store are
 * narrowed by the active filters, stage by stage, and then sorted by their
 * (readiness, engineering, maintenance) scores, highest first, stably.
 */
module Browse {
  import opened Wrappers
  import opened Text
  import opened Db
  import opened Validate

  /** The query parameters of the browse page; `minReady` is the already parsed `min_ready`. */
  datatype FilterSpec = FilterSpec(
    q: string,
    primaryBu: string,
    assetType: string,
    licenseFlag: string,
    useCase: string,
    minReady: int)

  /** The page opened with no parameters. */
  const NoFilters := FilterSpec("", "", "", "", "", 0)

  /** A parameter as `.strip()` leaves it: empty, or neither starting nor ending with whitespace. */
  predicate Unpadded(s: string) {
    s == "" || Clean(s)
  }

  /**
   * The text parameters as the handler reads them: stripped of surrounding
   * whitespace, so a parameter of only whitespace turns its filter off.
   */
  function Trimmed(f: FilterSpec): (g: FilterSpec)
    ensures Unpadded(g.q) && Unpadded(g.primaryBu) && Unpadded(g.assetType)
    ensures Unpadded(g.licenseFlag) && Unpadded(g.useCase)
    ensures (g.q == "" <==> Blank(f.q)) && (g.useCase == "" <==> Blank(f.useCase))
    ensures (g.primaryBu == "" <==> Blank(f.primaryBu)) && (g.assetType == "" <==> Blank(f.assetType))
    ensures (g.licenseFlag == "" <==> Blank(f.licenseFlag)) && g.minReady == f.minReady
  {
    FilterSpec(Strip(f.q), Strip(f.primaryBu), Strip(f.assetType), Strip(f.licenseFlag), Strip(f.useCase), f.minReady)
  }

  /** Stripping parameters that are already stripped changes nothing. */
  lemma TrimmedIdempotent(f: FilterSpec)
    ensures Trimmed(Trimmed(f)) == Trimmed(f)
  {
    var g := Trimmed(f);
    StripTwice(f.q);
    StripTwice(f.primaryBu);
    StripTwice(f.assetType);
    StripTwice(f.licenseFlag);
    StripTwice(f.useCase);
  }

  /**
   * The text a free-text query searches: the record's fields joined by single
   * spaces. A record read from the store has no `excelra_leverage` key, so its
   * slot always holds the empty string.
   */
  function Blob(r: Record): (b: string)
    ensures IsSubstring(r.name, b) && IsSubstring(r.shortSummary, b) && IsSubstring(r.url, b)
    ensures IsSubstring(r.primaryBu, b) && IsSubstring(r.notes, b)
    ensures forall i :: 0 <= i < |r.secondaryBus| ==> IsSubstring(r.secondaryBus[i], b)
    ensures forall i :: 0 <= i < |r.useCases| ==> IsSubstring(r.useCases[i], b)
  {
    var parts := [r.name, r.shortSummary, r.url, r.primaryBu,
                  Join(r.secondaryBus, " "), Join(r.useCases, " "), "", r.notes];
    var b := Join(parts, " ");
    JoinHas(parts, " ", 0);
    JoinHas(parts, " ", 1);
    JoinHas(parts, " ", 2);
    JoinHas(parts, " ", 3);
    JoinHas(parts, " ", 4);
    JoinHas(parts, " ", 5);
    JoinHas(parts, " ", 7);
    forall i | 0 <= i < |r.secondaryBus| ensures IsSubstring(r.secondaryBus[i], b) {
      JoinHas(r.secondaryBus, " ", i);
      SubstringTrans(r.secondaryBus[i], parts[4], b);
    }
    forall i | 0 <= i < |r.useCases| ensures IsSubstring(r.useCases[i], b) {
      JoinHas(r.useCases, " ", i);
      SubstringTrans(r.useCases[i], parts[5], b);
    }
    b
  }

  /**
   * The search text spelled out: the eight slots of the `join` separated by
   * single spaces, the `excelra_leverage` slot empty.
   */
  lemma BlobSpelled(r: Record)
    ensures Blob(r) ==
      r.name + " " + (r.shortSummary + " " + (r.url + " " + (r.primaryBu + " " +
      (Join(r.secondaryBus, " ") + " " + (Join(r.useCases, " ") + " " + ("" + " " + r.notes))))))
  {
    var parts := [r.name, r.shortSummary, r.url, r.primaryBu,
                  Join(r.secondaryBus, " "), Join(r.useCases, " "), "", r.notes];
    assert parts[0..] == parts;
    assert parts[7..] == [r.notes];
    JoinCons(parts, " ", 6);
    JoinCons(parts, " ", 5);
    JoinCons(parts, " ", 4);
    JoinCons(parts, " ", 3);
    JoinCons(parts, " ", 2);
    JoinCons(parts, " ", 1);
    JoinCons(parts, " ", 0);
  }

  /**
   * A free-text query that one of a record's fields contains (ignoring ASCII
   * case) is contained in the record's search text, so the text stage keeps it.
   */
  lemma FieldMatchKeeps(r: Record, field: string, q: string)
    requires field in [r.name, r.shortSummary, r.url, r.primaryBu, r.notes] || field in r.secondaryBus || field in r.useCases
    requires Contains(Some(field), q)
    ensures Contains(Some(Blob(r)), q)
  {
    var b := Blob(r);
    if field in r.secondaryBus {
      var i :| 0 <= i < |r.secondaryBus| && r.secondaryBus[i] == field;
    } else if field in r.useCases {
      var i :| 0 <= i < |r.useCases| && r.useCases[i] == field;
    }
    assert IsSubstring(field, b);
    LowerKeepsSubstring(field, b);
    SubstringTrans(Lower(q), Lower(field), Lower(b));
  }

  /** `has_uc`: does any use case contain the query? */
  function AnyUseCaseContains(useCases: seq<string>, needle: string): (r: bool)
    ensures r <==> exists i :: 0 <= i < |useCases| && Contains(Some(useCases[i]), needle)
  {
    if useCases == [] then false
    else if Contains(Some(useCases[0]), needle) then true
    else
      var r := AnyUseCaseContains(useCases[1..], needle);
      assert r ==> exists i :: 0 <= i < |useCases| && Contains(Some(useCases[i]), needle) by {
        if r {
          var i :| 0 <= i < |useCases[1..]| && Contains(Some(useCases[1..][i]), needle);
          assert useCases[i + 1] == useCases[1..][i];
        }
      }
      assert (exists i :: 0 <= i < |useCases| && Contains(Some(useCases[i]), needle)) ==> r by {
        if exists i :: 0 <= i < |useCases| && Contains(Some(useCases[i]), needle) {
          var i :| 0 <= i < |useCases| && Contains(Some(useCases[i]), needle);
          assert i != 0;
          assert useCases[1..][i - 1] == useCases[i];
        }
      }
      r
  }

  /**
   * What a record must satisfy to be shown: every active filter, all of them
   * together. The readiness threshold is always active.
   */
  predicate Selected(f: FilterSpec, r: Record) {
    && (f.q != "" ==> Contains(Some(Blob(r)), f.q))
    && (f.primaryBu != "" ==> r.primaryBu == f.primaryBu)
    && (f.assetType != "" ==> r.assetType == f.assetType)
    && (f.licenseFlag != "" ==> r.licenseFlag == f.licenseFlag)
    && r.readinessScore >= f.minReady
    && (f.useCase != "" ==> AnyUseCaseContains(r.useCases, f.useCase))
  }

  // ---------------------------------------------------------------------------
  // Filtering, stage by stage
  // ---------------------------------------------------------------------------

  /** The filter stages of `index`, in the order it applies them. */
  datatype Stage = TextStage | BuStage | TypeStage | LicenseStage | ReadyStage | UseCaseStage

  /** Whether `index` applies a stage: a text filter only when its parameter is non-empty. */
  predicate Active(f: FilterSpec, st: Stage) {
    match st
    case TextStage => f.q != ""
    case BuStage => f.primaryBu != ""
    case TypeStage => f.assetType != ""
    case LicenseStage => f.licenseFlag != ""
    case ReadyStage => true
    case UseCaseStage => f.useCase != ""
  }

  /** The predicate of one stage's list comprehension. */
  predicate Passes(f: FilterSpec, st: Stage, r: Record) {
    match st
    case TextStage => Contains(Some(Blob(r)), f.q)
    case BuStage => r.primaryBu == f.primaryBu
    case TypeStage => r.assetType == f.assetType
    case LicenseStage => r.licenseFlag == f.licenseFlag
    case ReadyStage => r.readinessScore >= f.minReady
    case UseCaseStage => AnyUseCaseContains(r.useCases, f.useCase)
  }

  /** `r` passes every active stage among `stages`. */
  predicate PassesAll(f: FilterSpec, stages: set<Stage>, r: Record) {
    forall st :: st in stages && Active(f, st) ==> Passes(f, st, r)
  }

  /** `[r for r in s if ...]`: the records of `s` passing every active stage among `stages`, in order. */
  function Survivors(s: seq<Record>, f: FilterSpec, stages: set<Stage>): (r: seq<Record>)
    ensures |r| <= |s|
    ensures forall x :: x in r ==> x in s && PassesAll(f, stages, x)
  {
    if s == [] then []
    else (if PassesAll(f, stages, s[0]) then [s[0]] else []) + Survivors(s[1..], f, stages)
  }

  const AllStages: set<Stage> := {TextStage, BuStage, TypeStage, LicenseStage, ReadyStage, UseCaseStage}

  /** The records `index` keeps, before sorting. */
  function Filtered(s: seq<Record>, f: FilterSpec): (r: seq<Record>)
    ensures forall x :: x in r ==> x in s && PassesAll(f, AllStages, x)
  {
    Survivors(s, f, AllStages)
  }

  /** Passing all six stages is the same as being selected. */
  lemma AllStagesSelect(f: FilterSpec, r: Record)
    ensures PassesAll(f, AllStages, r) <==> Selected(f, r)
  {
    assert TextStage in AllStages && BuStage in AllStages && TypeStage in AllStages;
    assert LicenseStage in AllStages && ReadyStage in AllStages && UseCaseStage in AllStages;
  }

  /** With no stage yet applied, nothing is removed. */
  lemma {:induction false} SurvivorsOfNoStage(s: seq<Record>, f: FilterSpec)
    ensures Survivors(s, f, {}) == s
  {
    if s != [] {
      SurvivorsOfNoStage(s[1..], f);
      assert s == [s[0]] + s[1..];
    }
  }

  /** Applying one stage to the survivors of earlier stages gives the survivors of all of them. */
  lemma {:induction false} SurvivorsCompose(s: seq<Record>, f: FilterSpec, done: set<Stage>, st: Stage)
    ensures Survivors(Survivors(s, f, done), f, {st}) == Survivors(s, f, done + {st})
  {
    if s != [] {
      SurvivorsCompose(s[1..], f, done, st);
      var head := if PassesAll(f, done, s[0]) then [s[0]] else [];
      assert PassesAll(f, done + {st}, s[0]) <==> PassesAll(f, done, s[0]) && PassesAll(f, {st}, s[0]);
      SurvivorsAppend(head, Survivors(s[1..], f, done), f, {st});
      if PassesAll(f, done, s[0]) {
        assert Survivors(head, f, {st}) == if PassesAll(f, {st}, s[0]) then [s[0]] else [];
      }
    }
  }

  /** Filtering distributes over concatenation. */
  lemma {:induction false} SurvivorsAppend(a: seq<Record>, b: seq<Record>, f: FilterSpec, stages: set<Stage>)
    ensures Survivors(a + b, f, stages) == Survivors(a, f, stages) + Survivors(b, f, stages)
  {
    if a != [] {
      assert (a + b)[0] == a[0];
      assert (a + b)[1..] == a[1..] + b;
      SurvivorsAppend(a[1..], b, f, stages);
    } else {
      assert a + b == b;
    }
  }

  /** A stage that is not active removes nothing. */
  lemma {:induction false} SurvivorsSkip(s: seq<Record>, f: FilterSpec, done: set<Stage>, st: Stage)
    requires !Active(f, st)
    ensures Survivors(s, f, done + {st}) == Survivors(s, f, done)
  {
    if s != [] {
      SurvivorsSkip(s[1..], f, done, st);
      assert PassesAll(f, done + {st}, s[0]) <==> PassesAll(f, done, s[0]);
    }
  }

  /** Generic subsequence: `a` is `b` with some elements left out, the rest in order. */
  ghost predicate IsSubsequence<T>(a: seq<T>, b: seq<T>)
    decreases |b|
  {
    a == [] || (b != [] && ((a[0] == b[0] && IsSubsequence(a[1..], b[1..])) || IsSubsequence(a, b[1..])))
  }

  /** Before sorting, the kept records are a subsequence of the input. */
  lemma {:induction false} SurvivorsSubsequence(s: seq<Record>, f: FilterSpec, stages: set<Stage>)
    ensures IsSubsequence(Survivors(s, f, stages), s)
  {
    if s != [] {
      SurvivorsSubsequence(s[1..], f, stages);
      var rest := Survivors(s[1..], f, stages);
      if PassesAll(f, stages, s[0]) {
        assert Survivors(s, f, stages) == [s[0]] + rest;
        assert ([s[0]] + rest)[1..] == rest;
      } else {
        assert Survivors(s, f, stages) == rest;
      }
    }
  }

  /**
   * The kept records are exactly the passing ones: each record occurs as often
   * as in the input when it passes, and not at all otherwise.
   */
  lemma {:induction false} SurvivorsCount(s: seq<Record>, f: FilterSpec, stages: set<Stage>, r: Record)
    ensures multiset(Survivors(s, f, stages))[r] == if PassesAll(f, stages, r) then multiset(s)[r] else 0
  {
    if s != [] {
      SurvivorsCount(s[1..], f, stages, r);
      assert s == [s[0]] + s[1..];
    }
  }

  /**
   * The filter conjunction: before sorting, the kept list is a subsequence of
   * the input, every kept record satisfies every active filter, and every
   * input record that satisfies them all is kept (as often as it occurs).
   */
  lemma FilteredExactly(s: seq<Record>, f: FilterSpec)
    ensures IsSubsequence(Filtered(s, f), s)
    ensures forall r :: r in Filtered(s, f) <==> r in s && Selected(f, r)
    ensures forall r :: Selected(f, r) ==> multiset(Filtered(s, f))[r] == multiset(s)[r]
  {
    SurvivorsSubsequence(s, f, AllStages);
    forall r ensures (r in Filtered(s, f) <==> r in s && Selected(f, r))
      && (Selected(f, r) ==> multiset(Filtered(s, f))[r] == multiset(s)[r])
    {
      SurvivorsCount(s, f, AllStages, r);
      AllStagesSelect(f, r);
    }
  }

  /**
   * The readiness threshold is applied even with no parameters; with the
   * default threshold 0 it removes no record whose readiness is not negative.
   */
  lemma {:induction false} DefaultThresholdKeepsAll(s: seq<Record>)
    requires forall i :: 0 <= i < |s| ==> s[i].readinessScore >= 0
    ensures Active(NoFilters, ReadyStage)
    ensures Filtered(s, NoFilters) == s
  {
    if s != [] {
      DefaultThresholdKeepsAll(s[1..]);
      AllStagesSelect(NoFilters, s[0]);
      assert s == [s[0]] + s[1..];
    }
  }

  // ---------------------------------------------------------------------------
  // Sorting
  // ---------------------------------------------------------------------------

  /** The sort key of `index`. */
  datatype Scores = Scores(readiness: int, engineering: int, maintenance: int)

  function ScoresOf(r: Record): Scores {
    Scores(r.readinessScore, r.engineeringScore, r.maintenanceScore)
  }

  /** Lexicographic order on the key: `a` sorts no later than `b` in the descending sort. */
  predicate AtLeast(a: Scores, b: Scores) {
    || a.readiness > b.readiness
    || (a.readiness == b.readiness && a.engineering > b.engineering)
    || (a.readiness == b.readiness && a.engineering == b.engineering && a.maintenance >= b.maintenance)
  }

  /** Non-increasing in the key, for every pair of positions. */
  predicate SortedByScores(s: seq<Record>) {
    forall i, j :: 0 <= i < j < |s| ==> AtLeast(ScoresOf(s[i]), ScoresOf(s[j]))
  }

  /** Inserts `x`, which came before every record of `s` in the input, ahead of the first record it is not below. */
  function InsertByScores(x: Record, s: seq<Record>): (r: seq<Record>)
    requires SortedByScores(s)
    ensures forall y :: y in r <==> y == x || y in s
    ensures SortedByScores(r)
  {
    if s == [] || AtLeast(ScoresOf(x), ScoresOf(s[0])) then
      var r := [x] + s;
      assert forall j :: 0 < j < |r| ==> r[j] == s[j - 1];
      r
    else
      var rest := InsertByScores(x, s[1..]);
      var r := [s[0]] + rest;
      assert forall y :: y in s <==> y == s[0] || y in s[1..] by {
        assert s == [s[0]] + s[1..];
      }
      forall j | 0 <= j < |rest| ensures AtLeast(ScoresOf(s[0]), ScoresOf(rest[j])) {
        assert rest[j] in rest;
        if rest[j] != x {
          var k :| 0 <= k < |s[1..]| && s[1..][k] == rest[j];
          assert s[k + 1] == rest[j];
        }
      }
      assert forall j :: 0 < j < |r| ==> r[j] == rest[j - 1];
      r
  }

  /** Insertion adds exactly the one record: the result is a permutation of `s` with `x`. */
  lemma {:induction false} InsertPermutes(x: Record, s: seq<Record>)
    requires SortedByScores(s)
    ensures multiset(InsertByScores(x, s)) == multiset(s) + multiset{x}
    decreases |s|
  {
    if s != [] && !AtLeast(ScoresOf(x), ScoresOf(s[0])) {
      InsertPermutes(x, s[1..]);
      assert s == [s[0]] + s[1..];
    }
  }

  /** `items.sort(key=scores, reverse=True)`: Python's stable sort, highest scores first. */
  function SortByScores(s: seq<Record>): (r: seq<Record>)
    ensures multiset(r) == multiset(s)
    ensures SortedByScores(r)
  {
    if s == [] then []
    else
      assert s == [s[0]] + s[1..];
      InsertPermutes(s[0], SortByScores(s[1..]));
      InsertByScores(s[0], SortByScores(s[1..]))
  }

  /**
   * Records scored (5,1,1), (5,1,1), (5,2,0), (3,5,5) come out as (5,2,0)
   * first, since its engineering score breaks the readiness tie, then the two
   * (5,1,1) records in their input order, then (3,5,5).
   */
  lemma SortExample(a: Record, b: Record, c: Record, d: Record)
    requires ScoresOf(a) == Scores(5, 1, 1) && ScoresOf(b) == Scores(5, 1, 1)
    requires ScoresOf(c) == Scores(5, 2, 0) && ScoresOf(d) == Scores(3, 5, 5)
    ensures SortByScores([a, b, c, d]) == [c, a, b, d]
  {
    SortExampleTail(b, c, d);
    SortExampleHead(a, b, c, d);
    assert [a, b, c, d][1..] == [b, c, d];
    SortStep([a, b, c, d], [c, b, d], [c, a, b, d]);
  }

  /** The first record of the example goes behind (5,2,0) and ahead of its tie. */
  lemma SortExampleHead(a: Record, b: Record, c: Record, d: Record)
    requires ScoresOf(a) == Scores(5, 1, 1) && ScoresOf(b) == Scores(5, 1, 1)
    requires ScoresOf(c) == Scores(5, 2, 0) && ScoresOf(d) == Scores(3, 5, 5)
    ensures SortedByScores([c, b, d]) && InsertByScores(a, [c, b, d]) == [c, a, b, d]
  {
    SortedThree(c, b, d);
    InsertAheadOfTie(a, b, d);
    InsertBehindHead(a, c, b, d);
  }

  /** A record not below the head of a sorted pair goes in front of it. */
  lemma InsertAheadOfTie(x: Record, y: Record, z: Record)
    requires SortedByScores([y, z]) && AtLeast(ScoresOf(x), ScoresOf(y))
    ensures InsertByScores(x, [y, z]) == [x, y, z]
  {
    InsertFront(x, [y, z]);
    assert [x] + [y, z] == [x, y, z];
  }

  /** Inserting a record below `y` into `[y, u, v]` keeps `y` in front. */
  lemma InsertBehindHead(x: Record, y: Record, u: Record, v: Record)
    requires SortedByScores([y, u, v]) && SortedByScores([u, v])
    requires !AtLeast(ScoresOf(x), ScoresOf(y))
    requires InsertByScores(x, [u, v]) == [x, u, v]
    ensures InsertByScores(x, [y, u, v]) == [y, x, u, v]
  {
    assert [y, u, v][1..] == [u, v];
    InsertAfter(x, [y, u, v], [x, u, v]);
    assert [y] + [x, u, v] == [y, x, u, v];
  }

  /** Three records in non-increasing key order form a sorted sequence, and so do the last two. */
  lemma SortedThree(x: Record, y: Record, z: Record)
    requires AtLeast(ScoresOf(x), ScoresOf(y)) && AtLeast(ScoresOf(y), ScoresOf(z))
    ensures SortedByScores([y, z]) && SortedByScores([x, y, z])
  {
  }

  /** The last three records of the example: (5,2,0) moves ahead of (5,1,1). */
  lemma SortExampleTail(b: Record, c: Record, d: Record)
    requires ScoresOf(b) == Scores(5, 1, 1)
    requires ScoresOf(c) == Scores(5, 2, 0) && ScoresOf(d) == Scores(3, 5, 5)
    ensures SortByScores([b, c, d]) == [c, b, d]
  {
    assert [c, d][1..] == [d];
    InsertFront(c, [d]);
    SortStep([c, d], [d], [c, d]);
    InsertFront(b, [d]);
    InsertAfter(b, [c, d], [b, d]);
    assert [b, c, d][1..] == [c, d];
    SortStep([b, c, d], [c, d], [c, b, d]);
  }

  /** A record not below the head of a sorted sequence goes in front of it. */
  lemma InsertFront(x: Record, s: seq<Record>)
    requires SortedByScores(s)
    requires s == [] || AtLeast(ScoresOf(x), ScoresOf(s[0]))
    ensures InsertByScores(x, s) == [x] + s
  {
  }

  /** Inserting a record below the head of a sorted sequence keeps the head in front. */
  lemma InsertAfter(x: Record, s: seq<Record>, t: seq<Record>)
    requires SortedByScores(s) && s != []
    requires !AtLeast(ScoresOf(x), ScoresOf(s[0]))
    requires SortedByScores(s[1..]) && InsertByScores(x, s[1..]) == t
    ensures InsertByScores(x, s) == [s[0]] + t
  {
  }

  /** One step of the sort: the head inserted into the sorted rest. */
  lemma SortStep(s: seq<Record>, sortedRest: seq<Record>, r: seq<Record>)
    requires s != []
    requires SortByScores(s[1..]) == sortedRest
    requires InsertByScores(s[0], sortedRest) == r
    ensures SortByScores(s) == r
  {
  }

  /** The records of `s` whose key is `k`, in order. */
  function WithScores(s: seq<Record>, k: Scores): seq<Record> {
    if s == [] then []
    else (if ScoresOf(s[0]) == k then [s[0]] else []) + WithScores(s[1..], k)
  }

  lemma {:induction false} InsertKeepsTies(x: Record, s: seq<Record>, k: Scores)
    requires SortedByScores(s)
    ensures WithScores(InsertByScores(x, s), k) == WithScores([x] + s, k)
  {
    if s == [] || AtLeast(ScoresOf(x), ScoresOf(s[0])) {
    } else {
      var rest := s[1..];
      InsertKeepsTies(x, rest, k);
      assert ([x] + s)[1..] == s;
      assert ([s[0]] + InsertByScores(x, rest))[1..] == InsertByScores(x, rest);
      assert ([x] + rest)[1..] == rest;
      assert s == [s[0]] + rest;
      assert ScoresOf(x) != ScoresOf(s[0]);
    }
  }

  /**
   * Stability: records with equal keys keep their relative order from the
   * input. For every key, the records carrying it appear in the sorted list in
   * the same order as in the input.
   */
  lemma {:induction false} SortKeepsTies(s: seq<Record>, k: Scores)
    ensures WithScores(SortByScores(s), k) == WithScores(s, k)
  {
    if s != [] {
      SortKeepsTies(s[1..], k);
      InsertKeepsTies(s[0], SortByScores(s[1..]), k);
      assert ([s[0]] + SortByScores(s[1..]))[1..] == SortByScores(s[1..]);
    }
  }

  // ---------------------------------------------------------------------------
  // The handler
  // ---------------------------------------------------------------------------

  /**
   * The body of `index` after the records are read: strip the parameters,
   * narrow the list one active filter at a time, then sort it.
   */
  method Index(assets: seq<Record>, args: FilterSpec) returns (items: seq<Record>)
    ensures items == SortByScores(Filtered(assets, Trimmed(args)))
    ensures SortedByScores(items)
    ensures multiset(items) == multiset(Filtered(assets, Trimmed(args)))
    ensures forall r :: r in items <==> r in assets && Selected(Trimmed(args), r)
  {
    var f := Trimmed(args);
    items := Narrow(assets, f);
    items := SortByScores(items);
    ShownExactly(assets, f);
  }

  /** The six filter stages of `index`, each applied only when its parameter is set. */
  method Narrow(assets: seq<Record>, f: FilterSpec) returns (items: seq<Record>)
    ensures items == Filtered(assets, f)
  {
    items := assets;
    SurvivorsOfNoStage(assets, f);
    ghost var done: set<Stage> := {};
    ghost var before := items;

    items := if f.q != "" then Survivors(items, f, {TextStage}) else items;
    Apply(assets, f, done, TextStage, before, items);
    done, before := done + {TextStage}, items;

    items := if f.primaryBu != "" then Survivors(items, f, {BuStage}) else items;
    Apply(assets, f, done, BuStage, before, items);
    done, before := done + {BuStage}, items;

    items := if f.assetType != "" then Survivors(items, f, {TypeStage}) else items;
    Apply(assets, f, done, TypeStage, before, items);
    done, before := done + {TypeStage}, items;

    items := if f.licenseFlag != "" then Survivors(items, f, {LicenseStage}) else items;
    Apply(assets, f, done, LicenseStage, before, items);
    done, before := done + {LicenseStage}, items;

    items := Survivors(items, f, {ReadyStage});
    Apply(assets, f, done, ReadyStage, before, items);
    done, before := done + {ReadyStage}, items;

    items := if f.useCase != "" then Survivors(items, f, {UseCaseStage}) else items;
    Apply(assets, f, done, UseCaseStage, before, items);
    done := done + {UseCaseStage};

    SixStages(assets, f);
  }

  /**
   * The page shows a sorted permutation of the kept records: exactly the input
   * records that satisfy every active filter.
   */
  lemma ShownExactly(s: seq<Record>, f: FilterSpec)
    ensures var shown := SortByScores(Filtered(s, f));
      && SortedByScores(shown)
      && multiset(shown) == multiset(Filtered(s, f))
      && forall r :: r in shown <==> r in s && Selected(f, r)
  {
    var shown := SortByScores(Filtered(s, f));
    FilteredExactly(s, f);
    assert forall r :: r in shown <==> r in multiset(shown);
    assert forall r :: r in Filtered(s, f) <==> r in multiset(Filtered(s, f));
  }

  /** Adding the six stages one at a time gives all of them. */
  lemma SixStages(s: seq<Record>, f: FilterSpec)
    ensures Survivors(s, f, {} + {TextStage} + {BuStage} + {TypeStage} + {LicenseStage} + {ReadyStage} + {UseCaseStage}) == Filtered(s, f)
  {
    assert {} + {TextStage} + {BuStage} + {TypeStage} + {LicenseStage} + {ReadyStage} + {UseCaseStage} == AllStages;
  }

  /** One stage of `index`: applied when active, skipped otherwise; either way the survivors of `done + {st}`. */
  lemma Apply(s: seq<Record>, f: FilterSpec, done: set<Stage>, st: Stage, before: seq<Record>, after: seq<Record>)
    requires before == Survivors(s, f, done)
    requires after == if Active(f, st) then Survivors(before, f, {st}) else before
    ensures after == Survivors(s, f, done + {st})
  {
    if Active(f, st) {
      SurvivorsCompose(s, f, done, st);
    } else {
      SurvivorsSkip(s, f, done, st);
    }
  }
}

=== FILE: db.dfy ===
/**
 * The record store of db.py: the `assets` table as a map from id to row plus
 * SQLite's AUTOINCREMENT counter, the `|`-delimited encoding of the two list
 * columns, and the CRUD operations on it.
 */
module Db {
  import opened Wrappers
  import opened Text

  /** What Python's `int(v)` does with a score value: yields a whole number, or raises. */
  datatype ScoreValue = Convertible(value: int) | Unconvertible

  /** An asset dict as handed to `insert_asset` / `update_asset`. */
  datatype Payload = Payload(
    name: string,
    url: string,
    shortSummary: string,
    primaryBu: string,
    secondaryBus: seq<string>,
    useCases: seq<string>,
    assetType: string,
    licenseFlag: string,
    licenseNotes: string,
    readinessScore: ScoreValue,
    engineeringScore: ScoreValue,
    maintenanceScore: ScoreValue,
    lastValidatedOn: string,
    owner: string,
    excelraLeverage: string,
    notes: string)

  /** The score a record gets when none is given: the seed defaults and the `Asset` schema. */
  const DefaultScore := 3

  /** One stored row of the `assets` table without its id; the list columns hold encoded text. */
  datatype Row = Row(
    name: string,
    url: string,
    shortSummary: string,
    primaryBu: string,
    secondaryBus: string,
    useCases: string,
    assetType: string,
    licenseFlag: string,
    licenseNotes: string,
    readinessScore: int,
    engineeringScore: int,
    maintenanceScore: int,
    lastValidatedOn: string,
    owner: string,
    notes: string)

  /** A dict as read back by `get_asset` / `list_assets`: the row's id, its columns, the lists decoded. */
  datatype Record = Record(
    id: int,
    name: string,
    url: string,
    shortSummary: string,
    primaryBu: string,
    secondaryBus: seq<string>,
    useCases: seq<string>,
    assetType: string,
    licenseFlag: string,
    licenseNotes: string,
    readinessScore: int,
    engineeringScore: int,
    maintenanceScore: int,
    lastValidatedOn: string,
    owner: string,
    notes: string)

  // ---------------------------------------------------------------------------
  // List encoding
  // ---------------------------------------------------------------------------

  /** An entry as `serialize_list` stores it: non-empty, no whitespace at either end. */
  predicate Clean(e: string) {
    e != "" && !IsSpace(e[0]) && !IsSpace(e[|e| - 1])
  }

  /** The entries `serialize_list` keeps: those not blank, each stripped, in their original order. */
  function Normalized(xs: seq<string>): (r: seq<string>)
    ensures |r| <= |xs|
  {
    if xs == [] then []
    else
      var x := xs[0];
      (if x != "" && Strip(x) != "" then [Strip(x)] else []) + Normalized(xs[1..])
  }

  /** Every entry `serialize_list` keeps is non-empty, with no whitespace at either end. */
  lemma {:induction false} NormalizedClean(xs: seq<string>)
    ensures forall i :: 0 <= i < |Normalized(xs)| ==> Clean(Normalized(xs)[i])
  {
    if xs != [] {
      var y := Strip(xs[0]);
      assert y != "" ==> Clean(y);
      var head := if xs[0] != "" && y != "" then [y] else [];
      var rest := Normalized(xs[1..]);
      NormalizedClean(xs[1..]);
      assert Normalized(xs) == head + rest;
      forall i | 0 <= i < |head + rest| ensures Clean((head + rest)[i]) {
        if i >= |head| {
          assert (head + rest)[i] == rest[i - |head|];
        }
      }
    }
  }

  /**
   * `serialize_list` keeps entries in order, one list after another, and of a
   * single entry it keeps the stripped entry unless the entry is blank.
   */
  lemma {:induction false} NormalizedAppend(xs: seq<string>, ys: seq<string>)
    ensures Normalized(xs + ys) == Normalized(xs) + Normalized(ys)
    ensures |xs| == 1 ==> Normalized(xs) == if Blank(xs[0]) then [] else [Strip(xs[0])]
  {
    if xs != [] {
      assert (xs + ys)[0] == xs[0];
      assert (xs + ys)[1..] == xs[1..] + ys;
      NormalizedAppend(xs[1..], ys);
      if |xs| == 1 {
        assert xs[1..] == [];
      }
    } else {
      assert xs + ys == ys;
    }
  }

  /** A list whose entries are already non-empty and unpadded is kept as it is. */
  lemma {:induction false} NormalizedOfClean(xs: seq<string>)
    requires forall i :: 0 <= i < |xs| ==> Clean(xs[i])
    ensures Normalized(xs) == xs
  {
    if xs != [] {
      StripUnchanged(xs[0]);
      assert forall i :: 0 <= i < |xs[1..]| ==> xs[1..][i] == xs[i + 1];
      NormalizedOfClean(xs[1..]);
      assert xs == [xs[0]] + xs[1..];
    }
  }

  /** `serialize_list` keeps nothing exactly when every entry is blank. */
  lemma {:induction false} NormalizedEmpty(xs: seq<string>)
    ensures Normalized(xs) == [] <==> forall i :: 0 <= i < |xs| ==> Strip(xs[i]) == ""
  {
    if xs != [] {
      var tail := xs[1..];
      NormalizedEmpty(tail);
      var head := if xs[0] != "" && Strip(xs[0]) != "" then [Strip(xs[0])] else [];
      assert Normalized(xs) == head + Normalized(tail);
      assert head == [] <==> Strip(xs[0]) == "";
      assert (forall i :: 0 <= i < |xs| ==> Strip(xs[i]) == "") <==>
             Strip(xs[0]) == "" && (forall i :: 0 <= i < |tail| ==> Strip(tail[i]) == "") by {
        assert forall i :: 0 <= i < |tail| ==> tail[i] == xs[i + 1];
        if Strip(xs[0]) == "" && (forall i :: 0 <= i < |tail| ==> Strip(tail[i]) == "") {
          forall i | 0 <= i < |xs| ensures Strip(xs[i]) == "" {
            if i > 0 {
              assert xs[i] == tail[i - 1];
            }
          }
        }
      }
    }
  }

  /** `serialize_list`: the normalised entries joined with `|`. */
  function Serialize(xs: seq<string>): (r: string)
    ensures r == "" <==> forall i :: 0 <= i < |xs| ==> Strip(xs[i]) == ""
  {
    var ys := Normalized(xs);
    NormalizedEmpty(xs);
    NormalizedClean(xs);
    assert ys != [] ==> Clean(ys[0]) && |Join(ys, "|")| >= |ys[0]| > 0;
    Join(ys, "|")
  }

  /** The pieces `deserialize_list` keeps: those that are not blank, unstripped, in order. */
  function KeepNonBlank(xs: seq<string>): (r: seq<string>)
    ensures forall i :: 0 <= i < |r| ==> !Blank(r[i])
    ensures forall y :: y in r ==> y in xs
  {
    if xs == [] then []
    else
      var keep := Strip(xs[0]) != "";
      assert keep <==> !Blank(xs[0]);
      var rest := KeepNonBlank(xs[1..]);
      var head := if keep then [xs[0]] else [];
      assert forall i :: |head| <= i < |head + rest| ==> (head + rest)[i] == rest[i - |head|];
      head + rest
  }

  /** Every non-blank piece is kept as often as it occurs; every blank one is dropped. */
  lemma {:induction false} KeepNonBlankCount(xs: seq<string>, y: string)
    ensures multiset(KeepNonBlank(xs))[y] == if Blank(y) then 0 else multiset(xs)[y]
  {
    if xs != [] {
      var keep := Strip(xs[0]) != "";
      var head := if keep then [xs[0]] else [];
      var rest := KeepNonBlank(xs[1..]);
      assert KeepNonBlank(xs) == head + rest;
      KeepNonBlankCount(xs[1..], y);
      MultisetSplit(xs, head, rest);
      if y == xs[0] {
        assert multiset(head)[y] == if keep then 1 else 0;
      } else {
        assert multiset(head)[y] == 0;
      }
    }
  }

  /** The counts of a list with its head split off, and of a concatenation. */
  lemma MultisetSplit<T>(xs: seq<T>, a: seq<T>, b: seq<T>)
    requires xs != []
    ensures multiset(xs) == multiset{xs[0]} + multiset(xs[1..])
    ensures multiset(a + b) == multiset(a) + multiset(b)
  {
    assert xs == [xs[0]] + xs[1..];
  }

  /** A list with no blank piece is kept whole. */
  lemma {:induction false} KeepNonBlankWhole(xs: seq<string>)
    requires forall i :: 0 <= i < |xs| ==> !Blank(xs[i])
    ensures KeepNonBlank(xs) == xs
  {
    if xs != [] {
      assert forall i :: 0 <= i < |xs[1..]| ==> xs[1..][i] == xs[i + 1];
      KeepNonBlankWhole(xs[1..]);
      assert xs == [xs[0]] + xs[1..];
    }
  }

  /** `deserialize_list`: the empty string is no entries, otherwise the non-blank `|`-pieces. */
  function Deserialize(s: string): (r: seq<string>)
    ensures s == "" ==> r == []
    ensures forall i :: 0 <= i < |r| ==> r[i] != "" && !Blank(r[i]) && '|' !in r[i]
  {
    if s == "" then []
    else
      var pieces := Split(s, '|');
      var r := KeepNonBlank(pieces);
      assert forall i :: 0 <= i < |r| ==> '|' !in r[i] by {
        forall i | 0 <= i < |r| ensures '|' !in r[i] {
          assert r[i] in pieces;
        }
      }
      r
  }

  /** Normalising never introduces a character that no entry had. */
  lemma {:induction false} NormalizedKeepsOut(xs: seq<string>, c: char)
    requires forall i :: 0 <= i < |xs| ==> c !in xs[i]
    ensures forall i :: 0 <= i < |Normalized(xs)| ==> c !in Normalized(xs)[i]
  {
    if xs != [] {
      NormalizedKeepsOut(xs[1..], c);
      assert c !in xs[0];
      StripKeepsOut(xs[0], c);
      var head := if xs[0] != "" && Strip(xs[0]) != "" then [Strip(xs[0])] else [];
      assert Normalized(xs) == head + Normalized(xs[1..]);
    }
  }

  /**
   * Round trip of the list columns: when no entry contains `|`, decoding the
   * encoding gives back exactly the non-blank entries, stripped, in order.
   */
  lemma {:induction false} ListRoundTrip(xs: seq<string>)
    requires forall i :: 0 <= i < |xs| ==> '|' !in xs[i]
    ensures Deserialize(Serialize(xs)) == Normalized(xs)
  {
    var ys := Normalized(xs);
    if ys != [] {
      NormalizedClean(xs);
      NormalizedKeepsOut(xs, '|');
      SplitJoin(ys, '|');
      assert forall i :: 0 <= i < |ys| ==> !Blank(ys[i]) by {
        forall i | 0 <= i < |ys| ensures !Blank(ys[i]) {
          assert Clean(ys[i]);
          assert !IsSpace(ys[i][0]);
        }
      }
      KeepNonBlankWhole(ys);
    }
  }

  /** A list of non-empty, unpadded entries without `|` is decoded back exactly as it was encoded. */
  lemma CleanRoundTrip(xs: seq<string>)
    requires forall i :: 0 <= i < |xs| ==> Clean(xs[i]) && '|' !in xs[i]
    ensures Deserialize(Serialize(xs)) == xs
  {
    ListRoundTrip(xs);
    NormalizedOfClean(xs);
  }

  /** An entry containing `|` comes back as two entries. */
  lemma ListRoundTripBrokenByBar()
    ensures Serialize(["a|b"]) == "a|b"
    ensures Deserialize(Serialize(["a|b"])) == ["a", "b"]
    ensures Normalized(["a|b"]) == ["a|b"]
  {
    StripUnchanged("a|b");
    assert ["a|b"][1..] == [];
    assert Normalized(["a|b"]) == ["a|b"];
    assert Join(["a", "b"], "|") == "a|b";
    SplitJoin(["a", "b"], '|');
    assert !Blank("a") && !Blank("b") by {
      assert !IsSpace("a"[0]) && !IsSpace("b"[0]);
    }
    KeepNonBlankWhole(["a", "b"]);
  }

  // ---------------------------------------------------------------------------
  // The table
  // ---------------------------------------------------------------------------

  /** The `assets` table: live rows by id, and the highest id ever issued (SQLite's AUTOINCREMENT sequence). */
  datatype Table = Table(rows: map<int, Row>, lastId: int) {
    /** Every live id is positive and no larger than the highest id ever issued. */
    ghost predicate Valid() {
      lastId >= 0 && forall id :: id in rows ==> 1 <= id <= lastId
    }
  }

  /** A freshly created table: no rows, no id issued yet. */
  const EmptyTable := Table(map[], 0)

  /**
   * The parameter tuple of the INSERT / UPDATE statements: `int(...)` raises,
   * and no row is built, exactly when some score does not convert.
   */
  function ToRow(a: Payload): (r: Option<Row>)
    ensures r.Some? <==>
      a.readinessScore.Convertible? && a.engineeringScore.Convertible? && a.maintenanceScore.Convertible?
  {
    match (a.readinessScore, a.engineeringScore, a.maintenanceScore)
    case (Convertible(r), Convertible(e), Convertible(m)) =>
      Some(Row(a.name, a.url, a.shortSummary, a.primaryBu,
               Serialize(a.secondaryBus), Serialize(a.useCases),
               a.assetType, a.licenseFlag, a.licenseNotes,
               r, e, m, a.lastValidatedOn, a.owner, a.notes))
    case _ => None
  }

  /** A stored row read back as a dict under its id, its list columns decoded into non-blank entries. */
  function RecordOf(id: int, row: Row): (r: Record)
    ensures r.id == id
    ensures forall i :: 0 <= i < |r.secondaryBus| ==> !Blank(r.secondaryBus[i])
    ensures forall i :: 0 <= i < |r.useCases| ==> !Blank(r.useCases[i])
  {
    Record(id, row.name, row.url, row.shortSummary, row.primaryBu,
           Deserialize(row.secondaryBus), Deserialize(row.useCases),
           row.assetType, row.licenseFlag, row.licenseNotes,
           row.readinessScore, row.engineeringScore, row.maintenanceScore,
           row.lastValidatedOn, row.owner, row.notes)
  }

  /** `insert_asset` on the table: the new table and the id issued, or no id when `int(...)` raised. */
  function InsertInto(t: Table, a: Payload): (r: (Table, Option<int>))
  {
    match ToRow(a)
    case None => (t, None)
    case Some(row) =>
      var id := t.lastId + 1;
      (Table(t.rows[id := row], id), Some(id))
  }

  /** `update_asset` on the table: the new table, and whether the statement ran (false when `int(...)` raised). */
  function UpdateIn(t: Table, id: int, a: Payload): (r: (Table, bool))
    ensures r.1 <==> ToRow(a).Some?
    ensures r.0.lastId == t.lastId && r.0.rows.Keys == t.rows.Keys
  {
    match ToRow(a)
    case None => (t, false)
    case Some(row) =>
      if id in t.rows then (Table(t.rows[id := row], t.lastId), true) else (t, true)
  }

  /** `delete_asset` on the table. */
  function DeleteFrom(t: Table, id: int): (r: Table)
    ensures r.rows.Keys == t.rows.Keys - {id} && r.lastId == t.lastId
  {
    Table(t.rows - {id}, t.lastId)
  }

  /** `get_asset` on the table. */
  function GetFrom(t: Table, id: int): (r: Option<Record>)
    ensures r.Some? <==> id in t.rows
    ensures r.Some? ==> r.value.id == id
  {
    if id in t.rows then Some(RecordOf(id, t.rows[id])) else None
  }

  /**
   * An insert issues an id above every id issued before, adds exactly one row,
   * keeps every other row, and keeps the table valid; when `int(...)` raises,
   * nothing changes.
   */
  lemma InsertIssuesFreshId(t: Table, a: Payload)
    requires t.Valid()
    ensures var (t', id) := InsertInto(t, a);
      && t'.Valid()
      && (id.Some? <==> ToRow(a).Some?)
      && (id.None? ==> t' == t)
      && (id.Some? ==>
            && id.value == t.lastId + 1
            && id.value !in t.rows
            && t'.lastId == id.value
            && t'.rows == t.rows[id.value := ToRow(a).value]
            && |t'.rows| == |t.rows| + 1)
  {
  }

  /** An update changes at most the row with that id; an absent id or a raising `int(...)` changes nothing. */
  lemma UpdateTouchesOnlyItsRow(t: Table, id: int, a: Payload)
    requires t.Valid()
    ensures var (t', ok) := UpdateIn(t, id, a);
      && t'.Valid()
      && ok == ToRow(a).Some?
      && t'.lastId == t.lastId
      && t'.rows.Keys == t.rows.Keys
      && (forall k :: k in t.rows && k != id ==> t'.rows[k] == t.rows[k])
      && (id !in t.rows || !ok ==> t' == t)
      && (id in t.rows && ok ==> t'.rows[id] == ToRow(a).value)
  {
  }

  /** A delete removes exactly the row with that id; an absent id leaves the table as it was. */
  lemma DeleteRemovesOnlyItsRow(t: Table, id: int)
    requires t.Valid()
    ensures DeleteFrom(t, id).Valid()
    ensures DeleteFrom(t, id).rows.Keys == t.rows.Keys - {id}
    ensures forall k :: k in t.rows && k != id ==> DeleteFrom(t, id).rows[k] == t.rows[k]
    ensures id !in t.rows ==> DeleteFrom(t, id) == t
  {
  }

  /**
   * Create-then-read: the row read back under the id an insert returned carries
   * every submitted field, the lists as `deserialize_list(serialize_list(...))`
   * gives them and the scores as converted. `excelra_leverage` has no column,
   * so the record has no such field.
   */
  lemma InsertThenGet(t: Table, a: Payload)
    requires ToRow(a).Some?
    ensures InsertInto(t, a).1.Some?
    ensures var (t', id) := InsertInto(t, a);
      var r := GetFrom(t', id.value);
      && r.Some?
      && r.value.id == id.value
      && r.value.name == a.name
      && r.value.url == a.url
      && r.value.shortSummary == a.shortSummary
      && r.value.primaryBu == a.primaryBu
      && r.value.secondaryBus == Deserialize(Serialize(a.secondaryBus))
      && r.value.useCases == Deserialize(Serialize(a.useCases))
      && r.value.assetType == a.assetType
      && r.value.licenseFlag == a.licenseFlag
      && r.value.licenseNotes == a.licenseNotes
      && r.value.readinessScore == a.readinessScore.value
      && r.value.engineeringScore == a.engineeringScore.value
      && r.value.maintenanceScore == a.maintenanceScore.value
      && r.value.lastValidatedOn == a.lastValidatedOn
      && r.value.owner == a.owner
      && r.value.notes == a.notes
  {
  }

  /**
   * When no list entry contains `|`, the lists read back are the submitted
   * ones with blank entries dropped and the rest stripped, in order.
   */
  lemma InsertThenGetLists(t: Table, a: Payload)
    requires ToRow(a).Some?
    requires forall i :: 0 <= i < |a.secondaryBus| ==> '|' !in a.secondaryBus[i]
    requires forall i :: 0 <= i < |a.useCases| ==> '|' !in a.useCases[i]
    ensures var (t', id) := InsertInto(t, a);
      id.Some? && GetFrom(t', id.value).Some?
    ensures var (t', id) := InsertInto(t, a);
      && GetFrom(t', id.value).value.secondaryBus == Normalized(a.secondaryBus)
      && GetFrom(t', id.value).value.useCases == Normalized(a.useCases)
  {
    InsertThenGet(t, a);
    ListRoundTrip(a.secondaryBus);
    ListRoundTrip(a.useCases);
  }

  /** `excelra_leverage` is never persisted: inserts that differ only in it store the same table. */
  lemma ExcelraLeverageNotStored(t: Table, id: int, a: Payload, leverage: string)
    ensures InsertInto(t, a) == InsertInto(t, a.(excelraLeverage := leverage))
    ensures UpdateIn(t, id, a) == UpdateIn(t, id, a.(excelraLeverage := leverage))
  {
  }

  /** The ids of a sequence of records. */
  function Ids(rs: seq<Record>): set<int> {
    if rs == [] then {} else Ids(rs[..|rs| - 1]) + {rs[|rs| - 1].id}
  }

  /** A largest element of a finite non-empty set of ids exists. */
  lemma {:induction false} MaxExists(s: set<int>)
    requires s != {}
    ensures exists m :: m in s && forall k :: k in s ==> k <= m
  {
    assert exists x :: x in s by {
      if forall x :: x !in s {
        assert false;
      }
    }
    var x :| x in s;
    if s != {x} {
      MaxExists(s - {x});
      var m :| m in s - {x} && forall k :: k in s - {x} ==> k <= m;
      var top := if x > m then x else m;
      forall k | k in s ensures k <= top {
        if k != x {
          assert k in s - {x};
        }
      }
      assert top in s;
    } else {
      assert forall k :: k in s ==> k <= x;
      assert x in s;
    }
  }

  /** `r` is the stored row with its id, as read back. */
  predicate StoredAs(rows: map<int, Row>, r: Record) {
    r.id in rows && r == RecordOf(r.id, rows[r.id])
  }

  /** Every record of `out` is the stored row with its id, as read back. */
  ghost predicate AllStored(rows: map<int, Row>, out: seq<Record>) {
    forall i :: 0 <= i < |out| ==> StoredAs(rows, out[i])
  }

  /** `out` is strictly descending by id, and above every pending id. */
  ghost predicate DescendingAbove(out: seq<Record>, pending: set<int>) {
    && (forall i, j :: 0 <= i < j < |out| ==> out[i].id > out[j].id)
    && (forall i, k :: 0 <= i < |out| && k in pending ==> out[i].id > k)
  }

  /** The loop state of `list_assets`: `out` lists, newest first, the stored rows whose ids are not pending. */
  ghost predicate ListedSoFar(rows: map<int, Row>, out: seq<Record>, pending: set<int>) {
    && pending <= rows.Keys
    && Ids(out) == rows.Keys - pending
    && |out| + |pending| == |rows.Keys|
    && AllStored(rows, out)
    && DescendingAbove(out, pending)
  }

  /** Appending the record with the largest pending id keeps the listing strictly descending. */
  lemma AppendKeepsOrder(out: seq<Record>, pending: set<int>, top: int, rec: Record)
    requires top in pending && rec.id == top
    requires forall k :: k in pending ==> k <= top
    requires DescendingAbove(out, pending)
    ensures Ids(out + [rec]) == Ids(out) + {top}
    ensures DescendingAbove(out + [rec], pending - {top})
  {
    var next := out + [rec];
    assert next[..|out|] == out;
    forall i, k | 0 <= i < |next| && k in pending - {top} ensures next[i].id > k {
      if i < |out| {
        assert next[i] == out[i];
      }
    }
  }

  /** Appending a record read back from the store keeps every record a stored one. */
  lemma AppendKeepsStored(rows: map<int, Row>, out: seq<Record>, rec: Record)
    requires AllStored(rows, out) && StoredAs(rows, rec)
    ensures AllStored(rows, out + [rec])
  {
    var next := out + [rec];
    forall i | 0 <= i < |next| ensures StoredAs(rows, next[i]) {
      if i < |out| {
        assert next[i] == out[i];
      }
    }
  }

  /** One step of `list_assets`: move the largest pending id to the end of the listing. */
  lemma AppendLargest(rows: map<int, Row>, out: seq<Record>, pending: set<int>, top: int)
    requires ListedSoFar(rows, out, pending)
    requires top in pending && forall k :: k in pending ==> k <= top
    ensures ListedSoFar(rows, out + [RecordOf(top, rows[top])], pending - {top})
  {
    var rec := RecordOf(top, rows[top]);
    assert StoredAs(rows, rec);
    AppendKeepsOrder(out, pending, top, rec);
    AppendKeepsStored(rows, out, rec);
  }

  /** The store behind db.py's module functions: one table, updated in place by each call. */
  class AssetStore {
    var rows: map<int, Row>
    var lastId: int
    /** Every id this store has ever handed out. */
    ghost var issued: set<int>

    function State(): Table
      reads this
    {
      Table(rows, lastId)
    }

    ghost predicate Valid()
      reads this
    {
      && State().Valid()
      && rows.Keys <= issued
      && forall id :: id in issued ==> 1 <= id <= lastId
    }

    /** `init_db` on a new database file: the table exists and is empty. */
    constructor ()
      ensures Valid() && State() == EmptyTable && issued == {}
    {
      rows := map[];
      lastId := 0;
      issued := {};
    }

    /** `insert_asset`: stores the row under a never-issued id and returns that id. */
    method Insert(a: Payload) returns (id: Option<int>)
      requires Valid()
      modifies this
      ensures Valid()
      ensures (State(), id) == InsertInto(old(State()), a)
      ensures id.Some? ==> id.value !in old(issued) && issued == old(issued) + {id.value}
      ensures id.None? ==> issued == old(issued)
    {
      match ToRow(a)
      case None =>
        id := None;
      case Some(row) =>
        var newId := lastId + 1;
        rows := rows[newId := row];
        lastId := newId;
        issued := issued + {newId};
        id := Some(newId);
    }

    /** `update_asset`: replaces the row with that id, if there is one. */
    method Update(id: int, a: Payload) returns (ok: bool)
      requires Valid()
      modifies this
      ensures Valid() && issued == old(issued)
      ensures (State(), ok) == UpdateIn(old(State()), id, a)
    {
      match ToRow(a)
      case None =>
        ok := false;
      case Some(row) =>
        if id in rows {
          rows := rows[id := row];
        }
        ok := true;
    }

    /** `delete_asset`: removes the row with that id; an absent id is not an error. */
    method Delete(id: int)
      requires Valid()
      modifies this
      ensures Valid() && issued == old(issued)
      ensures State() == DeleteFrom(old(State()), id)
    {
      rows := rows - {id};
    }

    /** `get_asset`: the row with that id, decoded, or nothing when the id is absent. */
    method Get(id: int) returns (r: Option<Record>)
      ensures r == GetFrom(State(), id)
      ensures r.None? <==> id !in rows
      ensures r.Some? ==> r.value.id == id
    {
      if id in rows {
        r := Some(RecordOf(id, rows[id]));
      } else {
        r := None;
      }
    }

    /** `count_assets`. */
    method Count() returns (n: int)
      ensures n == |rows|
    {
      n := |rows|;
    }

    /** `list_assets`: every stored row exactly once, decoded, in strictly descending id order. */
    method List() returns (out: seq<Record>)
      ensures Ids(out) == rows.Keys && |out| == |rows|
      ensures forall i :: 0 <= i < |out| ==> StoredAs(rows, out[i])
      ensures forall i, j :: 0 <= i < j < |out| ==> out[i].id > out[j].id
    {
      out := [];
      var pending := rows.Keys;
      while pending != {}
        invariant ListedSoFar(rows, out, pending)
        decreases |pending|
      {
        MaxExists(pending);
        var top :| top in pending && forall k :: k in pending ==> k <= top;
        AppendLargest(rows, out, pending, top);
        out, pending := out + [RecordOf(top, rows[top])], pending - {top};
      }
    }
  }
}

=== FILE: schema.dfy ===
/**
 * The declarative `Asset` schema of schema.py: the three closed vocabularies
 * and the typed record with its length and range constraints and its
 * defaults. The web handlers do not use it; it is a stricter contract than
 * `validate_payload`, and the lemmas here relate the two.
 */
module Schema {
  import opened Wrappers
  import opened Db
  import opened Validate

  /** The `PrimaryBU` literal type: the five business units. */
  datatype PrimaryBU = ChemistryServices | ClinPharmaServices | BioinformaticsServices | ScientificProducts | CrossBU
  {
    function Label(): string {
      match this
      case ChemistryServices => "Chemistry Services"
      case ClinPharmaServices => "ClinPharma Services"
      case BioinformaticsServices => "Bioinformatics Services"
      case ScientificProducts => "Scientific Products"
      case CrossBU => "Cross-BU"
    }
  }

  /** The `AssetType` literal type: the eight kinds of asset. */
  datatype AssetType = Dataset | Model | Pipeline | Library | AppUI | Benchmark | Ontology | PaperReference
  {
    function Label(): string {
      match this
      case Dataset => "Dataset"
      case Model => "Model"
      case Pipeline => "Pipeline"
      case Library => "Library"
      case AppUI => "App/UI"
      case Benchmark => "Benchmark"
      case Ontology => "Ontology"
      case PaperReference => "Paper/Reference"
    }
  }

  /** The `LicenseFlag` literal type. */
  datatype LicenseFlag = Green | Yellow | Red
  {
    function Label(): string {
      match this
      case Green => "Green"
      case Yellow => "Yellow"
      case Red => "Red"
    }
  }

  /** Reading a string as a `PrimaryBU`: accepted exactly when it is one of app.py's business units. */
  function ParsePrimaryBU(s: string): (r: Option<PrimaryBU>)
    ensures r.Some? <==> s in BuOptions
    ensures r.Some? ==> r.value.Label() == s
  {
    if s == "Chemistry Services" then Some(ChemistryServices)
    else if s == "ClinPharma Services" then Some(ClinPharmaServices)
    else if s == "Bioinformatics Services" then Some(BioinformaticsServices)
    else if s == "Scientific Products" then Some(ScientificProducts)
    else if s == "Cross-BU" then Some(CrossBU)
    else None
  }

  /** Reading a string as an `AssetType`: accepted exactly when it is one of app.py's asset types. */
  function ParseAssetType(s: string): (r: Option<AssetType>)
    ensures r.Some? <==> s in AssetTypes
    ensures r.Some? ==> r.value.Label() == s
  {
    if s == "Dataset" then Some(Dataset)
    else if s == "Model" then Some(Model)
    else if s == "Pipeline" then Some(Pipeline)
    else if s == "Library" then Some(Library)
    else if s == "App/UI" then Some(AppUI)
    else if s == "Benchmark" then Some(Benchmark)
    else if s == "Ontology" then Some(Ontology)
    else if s == "Paper/Reference" then Some(PaperReference)
    else None
  }

  /** Reading a string as a `LicenseFlag`: accepted exactly when it is one of app.py's licence flags. */
  function ParseLicenseFlag(s: string): (r: Option<LicenseFlag>)
    ensures r.Some? <==> s in LicenseFlags
    ensures r.Some? ==> r.value.Label() == s
  {
    if s == "Green" then Some(Green)
    else if s == "Yellow" then Some(Yellow)
    else if s == "Red" then Some(Red)
    else None
  }

  /**
   * Each vocabulary value reads back as itself, so the labels are distinct,
   * and every label is in the matching list of app.py.
   */
  lemma LabelsRoundTrip(b: PrimaryBU, t: AssetType, l: LicenseFlag)
    ensures ParsePrimaryBU(b.Label()) == Some(b) && b.Label() in BuOptions
    ensures ParseAssetType(t.Label()) == Some(t) && t.Label() in AssetTypes
    ensures ParseLicenseFlag(l.Label()) == Some(l) && l.Label() in LicenseFlags
  {
  }

  /** The `Asset` model; the vocabularies are enforced by the field types. */
  datatype Asset = Asset(
    id: Option<int>,
    name: string,
    shortSummary: string,
    url: string,
    primaryBu: PrimaryBU,
    secondaryBus: seq<PrimaryBU>,
    useCases: seq<string>,
    assetType: AssetType,
    licenseFlag: LicenseFlag,
    licenseNotes: string,
    readinessScore: int,
    engineeringScore: int,
    maintenanceScore: int,
    lastValidatedOn: Option<string>,
    owner: string,
    notes: string)
  {
    /**
     * The field constraints: minimum lengths, and every score between 0 and 5.
     * The minimum lengths make the three fields `validate_payload` requires non-empty.
     */
    predicate Valid()
      ensures Valid() ==> name != "" && shortSummary != "" && url != ""
    {
      && |name| >= 2
      && |shortSummary| >= 10
      && |url| >= 5
      && 0 <= readinessScore <= 5
      && 0 <= engineeringScore <= 5
      && 0 <= maintenanceScore <= 5
    }
  }


  /**
   * An `Asset` built from its required fields alone, every other field at its
   * default; the defaults meet every constraint of their own, so only the
   * three length limits decide whether it is valid.
   */
  function NewAsset(name: string, shortSummary: string, url: string, primaryBu: PrimaryBU, assetType: AssetType): (a: Asset)
    ensures a.Valid() <==> |name| >= 2 && |shortSummary| >= 10 && |url| >= 5
    ensures a.id.None? && a.name == name && a.shortSummary == shortSummary && a.url == url
    ensures a.primaryBu == primaryBu && a.assetType == assetType
    ensures a.secondaryBus == [] && a.useCases == []
    ensures a.licenseFlag == Yellow && a.licenseNotes == ""
    ensures a.readinessScore == DefaultScore && a.engineeringScore == DefaultScore && a.maintenanceScore == DefaultScore
    ensures a.lastValidatedOn.None? && a.owner == "" && a.notes == ""
  {
    Asset(None, name, shortSummary, url, primaryBu, [], [], assetType, Yellow, "",
          DefaultScore, DefaultScore, DefaultScore, None, "", "")
  }

  /** An asset as the dict app.py hands to the store, dates in their ISO text form. */
  function AsPayload(a: Asset): Payload {
    Payload(a.name, a.url, a.shortSummary, a.primaryBu.Label(),
            seq(|a.secondaryBus|, i requires 0 <= i < |a.secondaryBus| => a.secondaryBus[i].Label()),
            a.useCases, a.assetType.Label(), a.licenseFlag.Label(), a.licenseNotes,
            Convertible(a.readinessScore), Convertible(a.engineeringScore), Convertible(a.maintenanceScore),
            a.lastValidatedOn.GetOr(""), a.owner, "", a.notes)
  }

  /**
   * The schema is at least as strict as `validate_payload`: a valid asset
   * passes it, and its secondary units are all known business units too,
   * which `validate_payload` does not check.
   */
  lemma ValidAssetPasses(a: Asset)
    requires a.Valid()
    ensures ValidatePayload(AsPayload(a)) == None
    ensures forall i :: 0 <= i < |AsPayload(a).secondaryBus| ==> AsPayload(a).secondaryBus[i] in BuOptions
  {
    LabelsRoundTrip(a.primaryBu, a.assetType, a.licenseFlag);
    forall i | 0 <= i < |a.secondaryBus|
      ensures AsPayload(a).secondaryBus[i] in BuOptions
    {
      LabelsRoundTrip(a.secondaryBus[i], a.assetType, a.licenseFlag);
    }
  }

  /**
   * The schema is strictly stricter: a payload whose only shortfall is its
   * one-character name passes `validate_payload` but comes from no valid asset.
   */
  lemma SchemaStricter()
    ensures var p := Payload("x", "https://x", "a short summary", "Cross-BU", [], [], "Model", "Green", "",
                             Convertible(0), Convertible(5), Convertible(3), "", "", "", "");
      && ValidatePayload(p) == None
      && forall a: Asset :: a.Valid() ==> AsPayload(a) != p
  {
    var p := Payload("x", "https://x", "a short summary", "Cross-BU", [], [], "Model", "Green", "",
                     Convertible(0), Convertible(5), Convertible(3), "", "", "", "");
    assert p.primaryBu in BuOptions && p.assetType in AssetTypes && p.licenseFlag in LicenseFlags;
    assert Acceptable(p);
  }
}

=== FILE: seed.dfy ===
/**
 * `seed_if_empty` of app.py: when the store holds no asset, insert the seed
 * items one by one, each completed with the defaults for the keys it lacks.
 * The seed file's contents and today's date are parameters.
 */
module Seed {
  import opened Wrappers
  import opened Db

  /**
   * One seed item as read from the seed file. The required keys are plain
   * fields; a key that `setdefault` may fill in is `None` when the item lacks it.
   */
  datatype SeedItem = SeedItem(
    name: string,
    url: string,
    shortSummary: string,
    primaryBu: string,
    secondaryBus: Option<seq<string>>,
    useCases: Option<seq<string>>,
    assetType: string,
    licenseFlag: string,
    licenseNotes: Option<string>,
    readinessScore: Option<ScoreValue>,
    engineeringScore: Option<ScoreValue>,
    maintenanceScore: Option<ScoreValue>,
    lastValidatedOn: Option<string>,
    owner: Option<string>,
    excelraLeverage: Option<string>,
    notes: Option<string>)


  /**
   * The item after the ten `setdefault` calls: the keys it gives are kept;
   * missing lists are empty, missing scores 3, a missing date is today and
   * every other missing key is the empty string.
   */
  function Defaulted(it: SeedItem, today: string): (p: Payload)
    ensures p.name == it.name && p.url == it.url && p.shortSummary == it.shortSummary
    ensures p.primaryBu == it.primaryBu && p.assetType == it.assetType && p.licenseFlag == it.licenseFlag
    ensures p.secondaryBus == (if it.secondaryBus.Some? then it.secondaryBus.value else [])
    ensures p.useCases == (if it.useCases.Some? then it.useCases.value else [])
    ensures p.readinessScore == (if it.readinessScore.Some? then it.readinessScore.value else Convertible(DefaultScore))
    ensures p.engineeringScore == (if it.engineeringScore.Some? then it.engineeringScore.value else Convertible(DefaultScore))
    ensures p.maintenanceScore == (if it.maintenanceScore.Some? then it.maintenanceScore.value else Convertible(DefaultScore))
    ensures p.lastValidatedOn == (if it.lastValidatedOn.Some? then it.lastValidatedOn.value else today)
    ensures p.licenseNotes == (if it.licenseNotes.Some? then it.licenseNotes.value else "")
    ensures p.owner == (if it.owner.Some? then it.owner.value else "")
    ensures p.notes == (if it.notes.Some? then it.notes.value else "")
    ensures p.excelraLeverage == (if it.excelraLeverage.Some? then it.excelraLeverage.value else "")
  {
    Payload(
      it.name, it.url, it.shortSummary, it.primaryBu,
      it.secondaryBus.GetOr([]), it.useCases.GetOr([]),
      it.assetType, it.licenseFlag, it.licenseNotes.GetOr(""),
      it.readinessScore.GetOr(Convertible(DefaultScore)),
      it.engineeringScore.GetOr(Convertible(DefaultScore)),
      it.maintenanceScore.GetOr(Convertible(DefaultScore)),
      it.lastValidatedOn.GetOr(today), it.owner.GetOr(""),
      it.excelraLeverage.GetOr(""), it.notes.GetOr(""))
  }

  /**
   * The insert loop on the table: each item inserted in turn; an insert whose
   * `int(...)` raises ends the loop, the rows inserted before it staying (each
   * insert commits on its own). The flag tells whether every item went in.
   */
  function SeedInto(t: Table, items: seq<SeedItem>, today: string): (r: (Table, bool))
    decreases |items|
  {
    if items == [] then (t, true)
    else
      match InsertInto(t, Defaulted(items[0], today))
      case (_, None) => (t, false)
      case (t1, Some(_)) => SeedInto(t1, items[1..], today)
  }

  /** `seed_if_empty` on the table: nothing happens unless the table is empty. */
  function SeedIfEmptySpec(t: Table, items: seq<SeedItem>, today: string): (Table, bool) {
    if |t.rows| > 0 then (t, true) else SeedInto(t, items, today)
  }

  /** Whether `int(...)` accepts a score the item may lack. */
  predicate ScoreConverts(v: Option<ScoreValue>) {
    v.None? || v.value.Convertible?
  }

  /** Whether the item inserts without `int(...)` raising: each score it gives converts. */
  predicate Storable(it: SeedItem) {
    ScoreConverts(it.readinessScore) && ScoreConverts(it.engineeringScore) && ScoreConverts(it.maintenanceScore)
  }

  /** `Storable` is exactly the condition under which the insert of the defaulted item goes through. */
  lemma StorableInserts(it: SeedItem, today: string)
    ensures Storable(it) <==> ToRow(Defaulted(it, today)).Some?
  {
  }

  /** How many leading items insert without `int(...)` raising. */
  function Insertable(items: seq<SeedItem>): (n: nat)
    ensures n <= |items|
    ensures forall i :: 0 <= i < n ==> Storable(items[i])
    ensures n < |items| ==> !Storable(items[n])
  {
    if items == [] || !Storable(items[0]) then 0
    else
      var m := Insertable(items[1..]);
      assert forall i :: 1 <= i < 1 + m ==> items[i] == items[1..][i - 1];
      1 + m
  }

  /**
   * The insert loop adds exactly the insertable prefix, each item under the
   * next fresh id, and reports success exactly when that prefix is all of the
   * items; when nothing is insertable the table is untouched.
   */
  lemma {:induction false} SeedIntoCounts(t: Table, items: seq<SeedItem>, today: string)
    requires t.Valid()
    decreases |items|
    ensures var (t', ok) := SeedInto(t, items, today);
      var n := Insertable(items);
      && t'.Valid()
      && (ok <==> n == |items|)
      && t'.lastId == t.lastId + n
      && |t'.rows| == |t.rows| + n
      && (n == 0 ==> t' == t)
  {
    if items != [] {
      StorableInserts(items[0], today);
      if Storable(items[0]) {
        var t1 := InsertInto(t, Defaulted(items[0], today)).0;
        assert t.lastId + 1 !in t.rows;
        SeedIntoCounts(t1, items[1..], today);
      }
    }
  }

  /** The insert loop keeps every existing row and adds rows only under the ids it issues. */
  lemma {:induction false} SeedIntoKeeps(t: Table, items: seq<SeedItem>, today: string)
    requires t.Valid()
    decreases |items|
    ensures var t' := SeedInto(t, items, today).0;
      var n := Insertable(items);
      && (forall k :: k in t.rows ==> k in t'.rows && t'.rows[k] == t.rows[k])
      && (forall k :: k in t'.rows <==> k in t.rows || t.lastId < k <= t.lastId + n)
  {
    if items != [] {
      StorableInserts(items[0], today);
      if Storable(items[0]) {
        var row := ToRow(Defaulted(items[0], today)).value;
        var t1 := Table(t.rows[t.lastId + 1 := row], t.lastId + 1);
        assert SeedInto(t, items, today) == SeedInto(t1, items[1..], today);
        assert Insertable(items) == 1 + Insertable(items[1..]);
        SeedIntoKeeps(t1, items[1..], today);
      }
    }
  }

  /** The i-th insertable item is stored, defaults filled in, under the i-th id issued. */
  lemma SeedIntoStores(t: Table, items: seq<SeedItem>, today: string, i: int)
    requires t.Valid()
    requires 0 <= i < Insertable(items)
    ensures var t' := SeedInto(t, items, today).0;
      t.lastId + 1 + i in t'.rows && t'.rows[t.lastId + 1 + i] == ToRow(Defaulted(items[i], today)).value
  {
    var n := Insertable(items);
    SeedIntoInserts(t, items, today);
    SeedRowsAt(items[..n], today, i);
    assert items[..n][i] == items[i];
    InsertRowsStores(t, SeedRows(items[..n], today), i);
  }

  /** The rows the defaulted items become, for items that all insert. */
  function SeedRows(items: seq<SeedItem>, today: string): seq<Row>
    requires forall j :: 0 <= j < |items| ==> Storable(items[j])
  {
    if items == [] then []
    else
      StorableInserts(items[0], today);
      [ToRow(Defaulted(items[0], today)).value] + SeedRows(items[1..], today)
  }

  /** Each row of `SeedRows` is its item's row. */
  lemma {:induction false} SeedRowsAt(items: seq<SeedItem>, today: string, i: int)
    requires forall j :: 0 <= j < |items| ==> Storable(items[j])
    requires 0 <= i < |items|
    ensures |SeedRows(items, today)| == |items|
    ensures SeedRows(items, today)[i] == ToRow(Defaulted(items[i], today)).value
    decreases |items|
  {
    if i == 0 {
      SeedRowsLength(items[1..], today);
    } else {
      assert items[1..][i - 1] == items[i];
      SeedRowsAt(items[1..], today, i - 1);
    }
  }

  /** `SeedRows` has one row per item. */
  lemma {:induction false} SeedRowsLength(items: seq<SeedItem>, today: string)
    requires forall j :: 0 <= j < |items| ==> Storable(items[j])
    ensures |SeedRows(items, today)| == |items|
    decreases |items|
  {
    if items != [] {
      SeedRowsLength(items[1..], today);
    }
  }

  /** Rows added one by one, each under the next id. */
  function InsertRows(t: Table, rows: seq<Row>): Table
    decreases |rows|
  {
    if rows == [] then t
    else InsertRows(Table(t.rows[t.lastId + 1 := rows[0]], t.lastId + 1), rows[1..])
  }

  /** The insert loop adds the rows of its insertable prefix, one by one, under fresh ids. */
  lemma {:induction false} SeedIntoInserts(t: Table, items: seq<SeedItem>, today: string)
    ensures var n := Insertable(items);
      SeedInto(t, items, today).0 == InsertRows(t, SeedRows(items[..n], today))
    decreases |items|
  {
    var n := Insertable(items);
    if items == [] {
    } else if !Storable(items[0]) {
      StorableInserts(items[0], today);
      assert items[..n] == [];
    } else {
      StorableInserts(items[0], today);
      var row := ToRow(Defaulted(items[0], today)).value;
      var t1 := Table(t.rows[t.lastId + 1 := row], t.lastId + 1);
      assert SeedInto(t, items, today) == SeedInto(t1, items[1..], today);
      SeedIntoInserts(t1, items[1..], today);
      assert n == 1 + Insertable(items[1..]);
      assert items[..n][0] == items[0];
      assert items[..n][1..] == items[1..][..n - 1];
      assert SeedRows(items[..n], today) == [row] + SeedRows(items[1..][..n - 1], today);
    }
  }

  /** The i-th row added sits under the i-th id issued. */
  lemma {:induction false} InsertRowsStores(t: Table, rows: seq<Row>, i: int)
    requires t.Valid()
    requires 0 <= i < |rows|
    ensures t.lastId + 1 + i in InsertRows(t, rows).rows
    ensures InsertRows(t, rows).rows[t.lastId + 1 + i] == rows[i]
    decreases |rows|
  {
    var t1 := Table(t.rows[t.lastId + 1 := rows[0]], t.lastId + 1);
    if i == 0 {
      InsertRowsKeeps(t1, rows[1..], t1.lastId);
    } else {
      InsertRowsStores(t1, rows[1..], i - 1);
    }
  }

  /** Adding rows leaves every row that was there. */
  lemma {:induction false} InsertRowsKeeps(t: Table, rows: seq<Row>, k: int)
    requires t.Valid()
    requires k in t.rows
    ensures k in InsertRows(t, rows).rows && InsertRows(t, rows).rows[k] == t.rows[k]
    decreases |rows|
  {
    if rows != [] {
      InsertRowsKeeps(Table(t.rows[t.lastId + 1 := rows[0]], t.lastId + 1), rows[1..], k);
    }
  }

  /** A non-empty store is left exactly as it was. */
  lemma SeedSkipsNonEmpty(t: Table, items: seq<SeedItem>, today: string)
    requires |t.rows| > 0
    ensures SeedIfEmptySpec(t, items, today) == (t, true)
  {
  }

  /** Seeding twice in a row leaves the same table as seeding once. */
  lemma SeedIdempotent(t: Table, items: seq<SeedItem>, today: string)
    requires t.Valid()
    ensures var t1 := SeedIfEmptySpec(t, items, today).0;
      SeedIfEmptySpec(t1, items, today).0 == t1
  {
    if |t.rows| == 0 {
      SeedIntoCounts(t, items, today);
    }
  }

  /**
   * A seeded item whose optional keys are all missing reads back with the
   * defaults: no business units or use cases, empty notes, owner and licence
   * notes, scores of 3, and today's date.
   */
  lemma SeededDefaults(t: Table, items: seq<SeedItem>, today: string, i: int)
    requires t.Valid() && |t.rows| == 0
    requires 0 <= i < |items|
    requires var it := items[i];
      && it.secondaryBus.None? && it.useCases.None? && it.licenseNotes.None?
      && it.readinessScore.None? && it.engineeringScore.None? && it.maintenanceScore.None?
      && it.lastValidatedOn.None? && it.owner.None? && it.notes.None?
    requires forall j :: 0 <= j < i ==> Storable(items[j])
    ensures var r := GetFrom(SeedIfEmptySpec(t, items, today).0, t.lastId + 1 + i);
      && r.Some?
      && r.value.name == items[i].name
      && r.value.secondaryBus == [] && r.value.useCases == []
      && r.value.licenseNotes == "" && r.value.owner == "" && r.value.notes == ""
      && r.value.readinessScore == 3 && r.value.engineeringScore == 3 && r.value.maintenanceScore == 3
      && r.value.lastValidatedOn == today
  {
    PrefixInsertable(items, i);
    SeedIntoStores(t, items, today, i);
  }

  /** Every item of a convertible run from the start lies within the insertable prefix. */
  lemma {:induction false} PrefixInsertable(items: seq<SeedItem>, i: int)
    requires 0 <= i < |items|
    requires forall j :: 0 <= j <= i ==> Storable(items[j])
    ensures i < Insertable(items)
  {
    if i > 0 {
      PrefixInsertable(items[1..], i - 1);
    }
  }

  /**
   * `seed_if_empty` on the store: checks the count, then inserts the items in
   * order and stops at the first insert that raises.
   */
  method SeedIfEmpty(store: AssetStore, items: seq<SeedItem>, today: string) returns (ok: bool)
    requires store.Valid()
    modifies store
    ensures store.Valid()
    ensures (store.State(), ok) == SeedIfEmptySpec(old(store.State()), items, today)
  {
    var n := store.Count();
    if n > 0 {
      return true;
    }
    var i := 0;
    while i < |items|
      invariant 0 <= i <= |items|
      invariant store.Valid()
      invariant SeedInto(store.State(), items[i..], today) == SeedInto(old(store.State()), items, today)
    {
      assert items[i..][1..] == items[i + 1..];
      var id := store.Insert(Defaulted(items[i], today));
      if id.None? {
        return false;
      }
      i := i + 1;
    }
    return true;
  }
}

=== FILE: text.dfy ===
/**
 * The handful of Python string operations the catalog relies on:
 * `str.isspace`, `str.strip`, ASCII `str.lower`, the `in` substring test,
 * `sep.join(xs)` and `s.split(sep)`.
 */
module Text {

  /** Python's `str.isspace()` for one character. */
  predicate IsSpace(c: char) {
    || c == ' '
    || '\U{9}' <= c <= '\U{D}'
    || '\U{1C}' <= c <= '\U{1F}'
    || c == '\U{85}' || c == '\U{A0}' || c == '\U{1680}'
    || '\U{2000}' <= c <= '\U{200A}'
    || c == '\U{2028}' || c == '\U{2029}' || c == '\U{202F}' || c == '\U{205F}' || c == '\U{3000}'
  }

  /** Every character is whitespace (the empty string included). */
  predicate Blank(s: string) {
    forall i :: 0 <= i < |s| ==> IsSpace(s[i])
  }

  /** `s.rstrip()`: the longest prefix of `s` that does not end with whitespace. */
  function TrimEnd(s: string): (r: string)
    ensures |r| <= |s| && r == s[..|r|]
    ensures Blank(s[|r|..])
    ensures r == [] || !IsSpace(r[|r| - 1])
  {
    if s != [] && IsSpace(s[|s| - 1]) then
      var init := s[..|s| - 1];
      var r := TrimEnd(init);
      assert r == s[..|r|] by {
        assert init[..|r|] == s[..|r|];
      }
      assert Blank(s[|r|..]) by {
        assert s[|r|..] == init[|r|..] + [s[|s| - 1]];
      }
      r
    else
      assert s[|s|..] == [];
      s
  }

  /** `s.strip()`: drops the leading whitespace, then the trailing whitespace. */
  function Strip(s: string): (r: string)
    ensures r == "" <==> Blank(s)
    ensures r != "" ==> !IsSpace(r[0]) && !IsSpace(r[|r| - 1])
    decreases |s|
  {
    if s != [] && IsSpace(s[0]) then
      var r := Strip(s[1..]);
      assert Blank(s) <==> Blank(s[1..]) by {
        assert forall i :: 0 <= i < |s[1..]| ==> s[1..][i] == s[i + 1];
        if Blank(s[1..]) {
          forall i | 0 <= i < |s| ensures IsSpace(s[i]) {
            if i > 0 {
              assert s[i] == s[1..][i - 1];
            }
          }
        }
      }
      r
    else
      var r := TrimEnd(s);
      assert r != "" ==> r[0] == s[0];
      assert r == "" ==> s[|r|..] == s;
      r
  }

  /**
   * What `strip()` removes is a blank prefix and a blank suffix: the result is
   * the piece of the input between them. With the ends of the result not
   * being whitespace, this fixes the result.
   */
  lemma {:induction false} StripSlice(s: string)
    ensures exists i, j :: 0 <= i <= j <= |s| && Strip(s) == s[i..j] && Blank(s[..i]) && Blank(s[j..])
    decreases |s|
  {
    if s != [] && IsSpace(s[0]) {
      StripSlice(s[1..]);
      var t := s[1..];
      var i, j :| 0 <= i <= j <= |t| && Strip(t) == t[i..j] && Blank(t[..i]) && Blank(t[j..]);
      BlankShift(s, i, j);
      assert Strip(s) == s[i + 1..j + 1];
    } else {
      var r := TrimEnd(s);
      assert Strip(s) == r;
      assert Strip(s) == s[0..|r|] && Blank(s[..0]) && Blank(s[|r|..]);
    }
  }

  /** Blank margins around a slice of `s[1..]` stay blank margins in `s` when `s` starts with whitespace. */
  lemma BlankShift(s: string, i: int, j: int)
    requires s != [] && IsSpace(s[0]) && 0 <= i <= j <= |s| - 1
    requires Blank(s[1..][..i]) && Blank(s[1..][j..])
    ensures s[1..][i..j] == s[i + 1..j + 1] && Blank(s[..i + 1]) && Blank(s[j + 1..])
  {
    assert s[1..][j..] == s[j + 1..];
    assert s[..i + 1] == [s[0]] + s[1..][..i];
  }

  /** A string that neither starts nor ends with whitespace is its own stripped form. */
  lemma StripUnchanged(s: string)
    requires s != "" && !IsSpace(s[0]) && !IsSpace(s[|s| - 1])
    ensures Strip(s) == s
  {
  }

  /** `strip()` is idempotent. */
  lemma StripTwice(s: string)
    ensures Strip(Strip(s)) == Strip(s)
  {
    if Strip(s) != "" {
      StripUnchanged(Strip(s));
    }
  }

  /** Stripping never introduces a character. */
  lemma StripKeepsOut(s: string, c: char)
    requires c !in s
    ensures c !in Strip(s)
  {
  }

  /** ASCII lower-casing of one character; every other character is kept. */
  function LowerChar(c: char): char {
    if 'A' <= c <= 'Z' then (c as int + 32) as char else c
  }

  /**
   * `s.lower()`, restricted to ASCII letters: same length, no capital letter
   * left, each capital replaced by its small letter and every other character kept.
   */
  function Lower(s: string): (r: string)
    ensures |r| == |s|
    ensures forall i :: 0 <= i < |r| ==> !('A' <= r[i] <= 'Z')
    ensures forall i :: 0 <= i < |s| && 'A' <= s[i] <= 'Z' ==> r[i] as int == s[i] as int + 32
    ensures forall i :: 0 <= i < |s| && !('A' <= s[i] <= 'Z') ==> r[i] == s[i]
  {
    seq(|s|, i requires 0 <= i < |s| => LowerChar(s[i]))
  }

  /** Lower-casing a piece of a string gives the same piece of the lower-cased string. */
  lemma LowerSlice(s: string, i: int, j: int)
    requires 0 <= i <= j <= |s|
    ensures Lower(s[i..j]) == Lower(s)[i..j]
  {
    assert forall k :: 0 <= k < j - i ==> Lower(s[i..j])[k] == LowerChar(s[i + k]) == Lower(s)[i..j][k];
  }

  /** A substring stays a substring after lower-casing both sides. */
  lemma LowerKeepsSubstring(a: string, b: string)
    requires IsSubstring(a, b)
    ensures IsSubstring(Lower(a), Lower(b))
  {
    var i :| OccursAt(a, b, i);
    LowerSlice(b, i, i + |a|);
    assert OccursAt(Lower(a), Lower(b), i);
  }

  /** A substring of a substring is a substring. */
  lemma SubstringTrans(a: string, b: string, c: string)
    requires IsSubstring(a, b) && IsSubstring(b, c)
    ensures IsSubstring(a, c)
  {
    var i :| OccursAt(a, b, i);
    var j :| OccursAt(b, c, j);
    assert forall k :: 0 <= k < |b| ==> c[j + k] == b[k];
    assert forall k :: 0 <= k < |a| ==> b[i + k] == a[k];
    assert c[j + i..j + i + |a|] == a;
    assert OccursAt(a, c, j + i);
  }

  /** `needle` sits in `hay` starting at position `i`. */
  ghost predicate OccursAt(needle: string, hay: string, i: int) {
    0 <= i && i + |needle| <= |hay| && hay[i..i + |needle|] == needle
  }

  /** `needle` occurs as a contiguous piece of `hay` (the reference meaning of Python's `in`). */
  ghost predicate IsSubstring(needle: string, hay: string) {
    exists i :: OccursAt(needle, hay, i)
  }

  /** Python's `needle in hay` on strings, by a left-to-right scan. */
  function Occurs(needle: string, hay: string): (r: bool)
    ensures r <==> IsSubstring(needle, hay)
  {
    if |needle| <= |hay| && hay[..|needle|] == needle then
      assert OccursAt(needle, hay, 0);
      true
    else if hay == [] then
      false
    else
      var r := Occurs(needle, hay[1..]);
      assert r ==> IsSubstring(needle, hay) by {
        if r {
          var i :| OccursAt(needle, hay[1..], i);
          assert hay[i + 1..i + 1 + |needle|] == needle;
          assert OccursAt(needle, hay, i + 1);
        }
      }
      assert IsSubstring(needle, hay) ==> r by {
        if IsSubstring(needle, hay) {
          var i :| OccursAt(needle, hay, i);
          assert i != 0;
          assert hay[1..][i - 1..i - 1 + |needle|] == needle;
          assert OccursAt(needle, hay[1..], i - 1);
        }
      }
      r
  }

  /** Python's `sep.join(xs)`. */
  function Join(xs: seq<string>, sep: string): string {
    if |xs| == 0 then ""
    else if |xs| == 1 then xs[0]
    else xs[0] + sep + Join(xs[1..], sep)
  }

  /** Joining two or more pieces puts the first one, then the separator, in front of the join of the rest. */
  lemma JoinCons(xs: seq<string>, sep: string, k: int)
    requires 0 <= k < |xs| - 1
    ensures Join(xs[k..], sep) == xs[k] + sep + Join(xs[k + 1..], sep)
  {
    assert xs[k..][1..] == xs[k + 1..];
  }

  /** Every piece occurs in the joined string. */
  lemma {:induction false} JoinHas(xs: seq<string>, sep: string, k: int)
    requires 0 <= k < |xs|
    ensures IsSubstring(xs[k], Join(xs, sep))
  {
    var r := Join(xs, sep);
    if |xs| == 1 {
      assert OccursAt(xs[0], r, 0);
    } else if k == 0 {
      assert r == xs[0] + sep + Join(xs[1..], sep);
      assert OccursAt(xs[0], r, 0);
    } else {
      var rest := Join(xs[1..], sep);
      assert r == xs[0] + sep + rest;
      JoinHas(xs[1..], sep, k - 1);
      assert xs[k] == xs[1..][k - 1];
      var i :| OccursAt(xs[k], rest, i);
      var off := |xs[0] + sep|;
      assert r[off + i..off + i + |xs[k]|] == rest[i..i + |xs[k]|];
      assert OccursAt(xs[k], r, off + i);
    }
  }

  /** Python's `s.split(d)` for a one-character separator: never empty, one more piece than separators. */
  function Split(s: string, d: char): (r: seq<string>)
    ensures |r| >= 1
    ensures forall i :: 0 <= i < |r| ==> d !in r[i]
    ensures Join(r, [d]) == s
  {
    if s == [] then [""]
    else
      var rest := Split(s[1..], d);
      if s[0] == d then
        assert s == [d] + s[1..];
        [""] + rest
      else
        var r := [[s[0]] + rest[0]] + rest[1..];
        assert Join(r, [d]) == [s[0]] + Join(rest, [d]) by {
          if |rest| > 1 {
            assert r[1..] == rest[1..];
          }
        }
        assert s == [s[0]] + s[1..];
        r
  }

  /** Splitting a piece free of the separator, glued in front of more text, extends the first piece. */
  lemma {:induction false} SplitPrefix(x: string, t: string, d: char)
    requires d !in x
    ensures Split(x + t, d) == [x + Split(t, d)[0]] + Split(t, d)[1..]
  {
    var sp := Split(t, d);
    if x != [] {
      var rest := Split(x[1..] + t, d);
      SplitPrefix(x[1..], t, d);
      assert rest[0] == x[1..] + sp[0] && rest[1..] == sp[1..];
      assert (x + t)[0] == x[0] && x[0] != d;
      assert (x + t)[1..] == x[1..] + t;
      assert Split(x + t, d) == [[x[0]] + rest[0]] + rest[1..];
      assert [x[0]] + (x[1..] + sp[0]) == x + sp[0];
    } else {
      assert x + t == t;
      assert x + Split(t, d)[0] == Split(t, d)[0];
      assert Split(t, d) == [Split(t, d)[0]] + Split(t, d)[1..];
    }
  }

  /**
   * Splitting undoes joining, provided no piece contains the separator:
   * `(sep.join(xs)).split(sep) == xs` for a non-empty `xs`.
   */
  lemma {:induction false} SplitJoin(xs: seq<string>, d: char)
    requires |xs| >= 1
    requires forall i :: 0 <= i < |xs| ==> d !in xs[i]
    ensures Split(Join(xs, [d]), d) == xs
  {
    if |xs| == 1 {
      SplitPrefix(xs[0], "", d);
      assert Split("", d) == [""];
      assert xs[0] + "" == xs[0];
      assert Join(xs, [d]) == xs[0];
    } else {
      var rest := Join(xs[1..], [d]);
      SplitJoin(xs[1..], d);
      assert Join(xs, [d]) == xs[0] + ([d] + rest);
      SplitPrefix(xs[0], [d] + rest, d);
      assert ([d] + rest)[1..] == rest;
      var tail := Split([d] + rest, d);
      assert tail == [""] + xs[1..];
      assert tail[0] == "" && tail[1..] == xs[1..];
      assert xs[0] + tail[0] == xs[0];
      assert Split(Join(xs, [d]), d) == [xs[0]] + xs[1..];
      assert xs == [xs[0]] + xs[1..];
    }
  }
}

=== FILE: validate.dfy ===
/**
 * The checks app.py makes on a record before it reaches the store: the fixed
 * option lists, the case-insensitive `contains` test, `validate_payload` and
 * `normalize_date_str` (over a date parser given as a parameter).
 */
module Validate {
  import opened Wrappers
  import opened Text
  import opened Db

  /** The business units a record may name as its primary unit. */
  const BuOptions: seq<string> := [
    "Chemistry Services",
    "ClinPharma Services",
    "Bioinformatics Services",
    "Scientific Products",
    "Cross-BU"
  ]

  const AssetTypes: seq<string> := [
    "Dataset", "Model", "Pipeline", "Library", "App/UI", "Benchmark", "Ontology", "Paper/Reference"
  ]

  const LicenseFlags: seq<string> := ["Green", "Yellow", "Red"]

  /** `contains(haystack, needle)`: is the lower-cased needle a substring of the lower-cased haystack? */
  function Contains(haystack: Option<string>, needle: string): (r: bool)
    ensures r <==> IsSubstring(Lower(needle), Lower(haystack.GetOr("")))
  {
    Occurs(Lower(needle), Lower(haystack.GetOr("")))
  }

  /** An empty needle matches every haystack, a missing one included. */
  lemma ContainsEmptyNeedle(haystack: Option<string>)
    ensures Contains(haystack, "")
  {
    assert Lower(haystack.GetOr(""))[0..0] == "";
    assert OccursAt("", Lower(haystack.GetOr("")), 0);
  }

  /** A missing haystack is read as the empty string: only the empty needle is found in it. */
  lemma ContainsMissingHaystack(needle: string)
    ensures Contains(None, needle) <==> needle == ""
    ensures Contains(None, needle) == Contains(Some(""), needle)
  {
    if needle == "" {
      ContainsEmptyNeedle(None);
    }
  }

  /** The test ignores ASCII case on both sides. */
  lemma ContainsIgnoresCase(haystack: string, needle: string)
    ensures Contains(Some(haystack), needle) == Contains(Some(Lower(haystack)), Lower(needle))
  {
    assert Lower(Lower(haystack)) == Lower(haystack);
    assert Lower(Lower(needle)) == Lower(needle);
  }

  // ---------------------------------------------------------------------------
  // validate_payload
  // ---------------------------------------------------------------------------

  /** The three score keys, in the order `validate_payload` visits them. */
  datatype ScoreKey = Readiness | Engineering | Maintenance {
    function Name(): string {
      match this
      case Readiness => "readiness_score"
      case Engineering => "engineering_score"
      case Maintenance => "maintenance_score"
    }
  }

  const ScoreKeys: seq<ScoreKey> := [Readiness, Engineering, Maintenance]

  /** `p[k]` for a score key. */
  function ScoreOf(p: Payload, k: ScoreKey): ScoreValue {
    match k
    case Readiness => p.readinessScore
    case Engineering => p.engineeringScore
    case Maintenance => p.maintenanceScore
  }

  /** The payload with the score under key `k` replaced. */
  function WithScore(p: Payload, k: ScoreKey, v: ScoreValue): (q: Payload)
    ensures ScoreOf(q, k) == v
    ensures forall j :: j != k ==> ScoreOf(q, j) == ScoreOf(p, j)
  {
    match k
    case Readiness => p.(readinessScore := v)
    case Engineering => p.(engineeringScore := v)
    case Maintenance => p.(maintenanceScore := v)
  }

  const RequiredMessage := "Name, URL, and Short summary are required."
  const BuMessage := "Primary BU is invalid."
  const AssetTypeMessage := "Asset type is invalid."
  const LicenseMessage := "License flag is invalid."

  /** Reported when `int(p[k])` raises. */
  function NotANumberMessage(k: ScoreKey): string {
    k.Name() + " must be a number between 0 and 5."
  }

  /** Reported when `int(p[k])` lies outside [0, 5]. */
  function OutOfRangeMessage(k: ScoreKey): string {
    k.Name() + " must be between 0 and 5."
  }

  /** A score value `validate_payload` accepts. */
  predicate ScoreAcceptable(v: ScoreValue) {
    v.Convertible? && 0 <= v.value <= 5
  }

  /** The loop over the score keys: the message of the first key whose score is unusable, if any. */
  function CheckScores(p: Payload, keys: seq<ScoreKey>): (r: Option<string>)
    ensures r.None? <==> forall i :: 0 <= i < |keys| ==> ScoreAcceptable(ScoreOf(p, keys[i]))
  {
    if keys == [] then None
    else
      match ScoreOf(p, keys[0])
      case Unconvertible => Some(NotANumberMessage(keys[0]))
      case Convertible(s) =>
        if s < 0 || s > 5 then Some(OutOfRangeMessage(keys[0]))
        else
          var r := CheckScores(p, keys[1..]);
          assert (forall i :: 0 <= i < |keys| ==> ScoreAcceptable(ScoreOf(p, keys[i]))) <==>
                 (forall i :: 0 <= i < |keys[1..]| ==> ScoreAcceptable(ScoreOf(p, keys[1..][i]))) by {
            assert forall i :: 0 <= i < |keys[1..]| ==> keys[1..][i] == keys[i + 1];
            if forall i :: 0 <= i < |keys[1..]| ==> ScoreAcceptable(ScoreOf(p, keys[1..][i])) {
              forall i | 0 <= i < |keys| ensures ScoreAcceptable(ScoreOf(p, keys[i])) {
                if i > 0 {
                  assert keys[i] == keys[1..][i - 1];
                }
              }
            }
          }
          r
  }

  /** Everything `validate_payload` demands of a payload, stated as one conjunction. */
  predicate Acceptable(p: Payload) {
    && p.name != "" && p.url != "" && p.shortSummary != ""
    && p.primaryBu in BuOptions
    && p.assetType in AssetTypes
    && p.licenseFlag in LicenseFlags
    && ScoreAcceptable(p.readinessScore)
    && ScoreAcceptable(p.engineeringScore)
    && ScoreAcceptable(p.maintenanceScore)
  }

  /** `validate_payload`: no message exactly when the payload is acceptable. */
  function ValidatePayload(p: Payload): (r: Option<string>)
    ensures r.None? <==> Acceptable(p)
  {
    if p.name == "" || p.url == "" || p.shortSummary == "" then Some(RequiredMessage)
    else if p.primaryBu !in BuOptions then Some(BuMessage)
    else if p.assetType !in AssetTypes then Some(AssetTypeMessage)
    else if p.licenseFlag !in LicenseFlags then Some(LicenseMessage)
    else
      var r := CheckScores(p, ScoreKeys);
      assert ScoreKeys[0] == Readiness && ScoreKeys[1] == Engineering && ScoreKeys[2] == Maintenance;
      r
  }

  /** The outcome of one check: its message when violated. */
  function Check(violated: bool, message: string): Option<string> {
    if violated then Some(message) else None
  }

  /** The outcome of the check on one score key. */
  function ScoreCheck(p: Payload, k: ScoreKey): Option<string> {
    match ScoreOf(p, k)
    case Unconvertible => Some(NotANumberMessage(k))
    case Convertible(s) => Check(s < 0 || s > 5, OutOfRangeMessage(k))
  }

  /** The checks on the given score keys, in order. */
  function ScoreChecks(p: Payload, keys: seq<ScoreKey>): seq<Option<string>> {
    if keys == [] then [] else [ScoreCheck(p, keys[0])] + ScoreChecks(p, keys[1..])
  }

  /** The checks of `validate_payload` in the order they are made. */
  function Checks(p: Payload): seq<Option<string>> {
    [ Check(p.name == "" || p.url == "" || p.shortSummary == "", RequiredMessage),
      Check(p.primaryBu !in BuOptions, BuMessage),
      Check(p.assetType !in AssetTypes, AssetTypeMessage),
      Check(p.licenseFlag !in LicenseFlags, LicenseMessage) ]
    + ScoreChecks(p, ScoreKeys)
  }

  /** The first violated check's message, if any check is violated. */
  function FirstFailure(checks: seq<Option<string>>): (r: Option<string>)
    ensures r.None? <==> forall i :: 0 <= i < |checks| ==> checks[i].None?
    ensures r.Some? ==> exists i :: 0 <= i < |checks| && checks[i] == r && forall j :: 0 <= j < i ==> checks[j].None?
  {
    if checks == [] then None
    else if checks[0].Some? then
      checks[0]
    else
      var r := FirstFailure(checks[1..]);
      assert r.Some? ==> exists i :: 0 <= i < |checks| && checks[i] == r && forall j :: 0 <= j < i ==> checks[j].None? by {
        if r.Some? {
          var i :| 0 <= i < |checks[1..]| && checks[1..][i] == r && forall j :: 0 <= j < i ==> checks[1..][j].None?;
          assert checks[i + 1] == r;
          forall j | 0 <= j < i + 1 ensures checks[j].None? {
            if j > 0 {
              assert checks[j] == checks[1..][j - 1];
            }
          }
        }
      }
      assert (forall i :: 0 <= i < |checks| ==> checks[i].None?) <==>
             (forall i :: 0 <= i < |checks[1..]| ==> checks[1..][i].None?) by {
        assert forall i :: 0 <= i < |checks[1..]| ==> checks[1..][i] == checks[i + 1];
        if forall i :: 0 <= i < |checks[1..]| ==> checks[1..][i].None? {
          forall i | 0 <= i < |checks| ensures checks[i].None? {
            if i > 0 {
              assert checks[i] == checks[1..][i - 1];
            }
          }
        }
      }
      r
  }

  /**
   * `validate_payload` reports exactly the first violated check, in the order
   * required fields, business unit, asset type, license flag, then the
   * readiness, engineering and maintenance scores.
   */
  lemma {:induction false} ValidateReportsFirstFailure(p: Payload)
    ensures ValidatePayload(p) == FirstFailure(Checks(p))
  {
    FirstOfFour(
      Check(p.name == "" || p.url == "" || p.shortSummary == "", RequiredMessage),
      Check(p.primaryBu !in BuOptions, BuMessage),
      Check(p.assetType !in AssetTypes, AssetTypeMessage),
      Check(p.licenseFlag !in LicenseFlags, LicenseMessage),
      ScoreChecks(p, ScoreKeys));
    CheckScoresIsFirstFailure(p, ScoreKeys);
  }

  /** The first failure among four checks followed by more: the first of the four that fails, else the first of the rest. */
  lemma FirstOfFour(c0: Option<string>, c1: Option<string>, c2: Option<string>, c3: Option<string>, rest: seq<Option<string>>)
    ensures FirstFailure([c0, c1, c2, c3] + rest) ==
      if c0.Some? then c0 else if c1.Some? then c1 else if c2.Some? then c2 else if c3.Some? then c3
      else FirstFailure(rest)
  {
    FirstFailureAppend([c0, c1, c2, c3], rest);
    assert [c3][1..] == [];
    assert FirstFailure([c3]) == if c3.Some? then c3 else None;
    assert [c2, c3][1..] == [c3];
    assert FirstFailure([c2, c3]) == if c2.Some? then c2 else FirstFailure([c3]);
    assert [c1, c2, c3][1..] == [c2, c3];
    assert FirstFailure([c1, c2, c3]) == if c1.Some? then c1 else FirstFailure([c2, c3]);
    assert [c0, c1, c2, c3][1..] == [c1, c2, c3];
    assert FirstFailure([c0, c1, c2, c3]) == if c0.Some? then c0 else FirstFailure([c1, c2, c3]);
  }

  /** The first failure of two lists of checks run one after the other. */
  lemma {:induction false} FirstFailureAppend(a: seq<Option<string>>, b: seq<Option<string>>)
    ensures FirstFailure(a + b) == if FirstFailure(a).Some? then FirstFailure(a) else FirstFailure(b)
  {
    if a != [] {
      assert (a + b)[0] == a[0];
      assert (a + b)[1..] == a[1..] + b;
      FirstFailureAppend(a[1..], b);
    } else {
      assert a + b == b;
    }
  }

  /** The score loop reports the first failing score check. */
  lemma {:induction false} CheckScoresIsFirstFailure(p: Payload, keys: seq<ScoreKey>)
    ensures CheckScores(p, keys) == FirstFailure(ScoreChecks(p, keys))
  {
    if keys != [] {
      CheckScoresIsFirstFailure(p, keys[1..]);
      assert ScoreChecks(p, keys)[1..] == ScoreChecks(p, keys[1..]);
    }
  }

  /**
   * The bounds of a score, for a payload that is otherwise acceptable: any
   * whole number in [0, 5] is accepted, any other is rejected with the range
   * message, and a value `int` cannot convert gets the "number" message.
   */
  lemma ScoreBounds(p: Payload, k: ScoreKey, n: int)
    requires Acceptable(p)
    ensures ValidatePayload(WithScore(p, k, Convertible(n))) ==
            if 0 <= n <= 5 then None else Some(OutOfRangeMessage(k))
    ensures ValidatePayload(WithScore(p, k, Unconvertible)) == Some(NotANumberMessage(k))
  {
    OnlyScoreFails(p, k, Convertible(n));
    OnlyScoreFails(p, k, Unconvertible);
  }

  /** The score checks run on the readiness, engineering and maintenance scores, in that order. */
  lemma ScoreChecksInOrder(q: Payload)
    ensures ScoreChecks(q, ScoreKeys) == [ScoreCheck(q, Readiness), ScoreCheck(q, Engineering), ScoreCheck(q, Maintenance)]
  {
    assert [Maintenance][1..] == [];
    assert ScoreChecks(q, [Maintenance]) == [ScoreCheck(q, Maintenance)];
    assert [Engineering, Maintenance][1..] == [Maintenance];
    assert ScoreChecks(q, [Engineering, Maintenance]) == [ScoreCheck(q, Engineering), ScoreCheck(q, Maintenance)];
    assert ScoreKeys[1..] == [Engineering, Maintenance];
  }

  /** The first failure among three checks. */
  lemma FirstOfThree(c0: Option<string>, c1: Option<string>, c2: Option<string>)
    ensures FirstFailure([c0, c1, c2]) == if c0.Some? then c0 else if c1.Some? then c1 else c2
  {
    assert [c2][1..] == [];
    assert FirstFailure([c2]) == c2;
    assert [c1, c2][1..] == [c2];
    assert FirstFailure([c1, c2]) == if c1.Some? then c1 else FirstFailure([c2]);
    assert [c0, c1, c2][1..] == [c1, c2];
  }

  /** When only the score under `k` may be unusable, its check alone decides the outcome. */
  lemma OnlyScoreFails(p: Payload, k: ScoreKey, v: ScoreValue)
    requires Acceptable(p)
    ensures ValidatePayload(WithScore(p, k, v)) == ScoreCheck(WithScore(p, k, v), k)
  {
    var q := WithScore(p, k, v);
    assert q.name == p.name && q.url == p.url && q.shortSummary == p.shortSummary;
    assert q.primaryBu == p.primaryBu && q.assetType == p.assetType && q.licenseFlag == p.licenseFlag;
    assert ValidatePayload(q) == CheckScores(q, ScoreKeys);
    CheckScoresIsFirstFailure(q, ScoreKeys);
    ScoreChecksInOrder(q);
    FirstOfThree(ScoreCheck(q, Readiness), ScoreCheck(q, Engineering), ScoreCheck(q, Maintenance));
    assert forall j :: j != k ==> ScoreCheck(q, j) == None;
  }

  /** The boundary cases: -1 and 6 are rejected with the range message, 0 and 5 are accepted. */
  lemma ScoreBoundaryExamples(p: Payload, k: ScoreKey)
    requires Acceptable(p)
    ensures ValidatePayload(WithScore(p, k, Convertible(-1))) == Some(k.Name() + " must be between 0 and 5.")
    ensures ValidatePayload(WithScore(p, k, Convertible(6))) == Some(k.Name() + " must be between 0 and 5.")
    ensures ValidatePayload(WithScore(p, k, Convertible(0))) == None
    ensures ValidatePayload(WithScore(p, k, Convertible(5))) == None
  {
    ScoreBounds(p, k, -1);
    ScoreBounds(p, k, 6);
    ScoreBounds(p, k, 0);
    ScoreBounds(p, k, 5);
  }

  // ---------------------------------------------------------------------------
  // normalize_date_str
  // ---------------------------------------------------------------------------

  /**
   * `normalize_date_str`, with dateutil's parser given as `parse`: the ISO date
   * it yields for the stripped text, or None when it raises.
   */
  function NormalizeDate(s: string, parse: string -> Option<string>): (r: string)
    ensures Blank(s) ==> r == ""
    ensures !Blank(s) && parse(Strip(s)).None? ==> r == Strip(s)
    ensures !Blank(s) && parse(Strip(s)).Some? ==> r == parse(Strip(s)).value
  {
    var t := Strip(s);
    if t == "" then ""
    else
      match parse(t)
      case Some(iso) => iso
      case None => t
  }
}

=== FILE: wrappers.dfy ===
/** The optional value used wherever the catalog returns `None` or "absent". */
module Wrappers {

  datatype Option<+T> = None | Some(value: T) {

    /** The value if present, otherwise `default` (Python's `x or default` on an optional). */
    function GetOr(default: T): T {
      match this
      case Some(v) => v
      case None => default
    }
  }
}
